=== FILE: README.md ===
# Drag-and-drop board editor: placement engine

This project models the placement engine of a small board editor. Items
(rectangular pieces with a width in grid units) live in four ordered
buckets: the `available` pool and the three rows `grid-1`, `grid-2` and
`grid-3`. The active board size fixes the capacity of each row, its
`grooveWidth`. The model has these parts:

- the item record and the id helpers (`GridItem`);
- the row width figures and the "full" highlight (`GridDroppable`);
- the board table (`Boards`);
- `arrayMove`, defined as "remove at the old index, insert at the new one" (`Sortable`);
- the decimal rendering behind the `item-<counter>` ids (`Decimal`);
- the number picker toggle (`ItemPicker`);
- the editor's handlers (`NewApp`): `calculateHeight`, `createNewItem`,
  `removeItemFromAvailable`, `getGridItems`/`setGridItems`,
  `findItemLocation`, `handleDragEnd` and the board select's `onChange`.

Each handler is a pure function from one editor state (`NewApp.Placement`)
to the next. A drop returns `Applied(next)`, or `NoRoom(needed, remaining)`
when the row's capacity check turns the item away. In the application that
case shows an alert and changes nothing.

`PlacementInvariants.Valid` is the invariant of a well-kept editor:

- no bucket holds two items with the same id;
- every width is positive;
- no id is in two buckets;
- no item id names a bucket or starts with `grid-`;
- the id counter can only produce ids not yet in use;
- the board is one of the catalogue's.

`PlacementProofs` proves that every drag end keeps `Valid`, and keeps rows
within capacity when they were. It also proves what a drop does to the
items:

- reorders and moves conserve the multiset of items;
- a drop on an id that is neither an item nor a known bucket removes the
  dragged item from the editor altogether, with one exception. An id that
  starts with `grid-` but names no row (`grid-9`, say) goes through the
  capacity check against an empty row first. So an item wider than the
  board's groove is refused there and nothing is lost. The code does this as
  written, and the model keeps it.

`HandlerProofs` covers creation, deletion and board switching. It shows
that switching to a smaller board never re-checks the rows, so a row can
end up over capacity.

Two observations about the source's data, stated as lemmas rather than
corrected:

- The record documents widths of 1-10 units with heights 1-3, and
  `calculateHeight` uses thresholds 3 and 7 on that scale. Every template is
  at least 10 units wide, so every created item is 3 units tall.
- The seed items carry heights that `calculateHeight` would not give them
  (`HandlerProofs.CreatedItemsAreTall`).

Two behaviours of the code may look unintended. The model keeps both as
written:

- deletion only filters the pool, so an item placed in a row cannot be deleted;
- a drop on an unrecognised target loses the item rather than being a no-op, unless an unlisted `grid-` id refuses it for want of room.

## Model

| member | source | states |
|---|---|---|
| Decimal.NatToString | src/NewApp/NewApp.tsx:84 | the counter is rendered as a non-empty string of decimal digits without a leading zero, which reads back as the counter's value |
| Decimal.NatToStringInjective | src/NewApp/NewApp.tsx:84 | distinct counter values give distinct decimal renderings, so `item-<n>` ids never collide |
| NewApp.ItemId | src/NewApp/NewApp.tsx:84 | an item id is `item-` followed by decimal digits, without a leading zero, that read back as the counter value it was made from |
| PlacementInvariants.ItemIdInjective | src/NewApp/NewApp.tsx:84 | `item-<a>` equals `item-<b>` only when a equals b |
| PlacementInvariants.ItemIdIsForeign | src/NewApp/NewApp.tsx:161-164 | a generated item id can never be mistaken for a bucket id or a `grid-` id when it is a drop target |
| Sortable.ArrayMove | src/NewApp/NewApp.tsx:176 | moving index `from` to index `to` puts the moved element at `to`, shifts the elements in between by one toward `from`, leaves the others in place and keeps the multiset |
| Sortable.ArrayMoveInverse | src/NewApp/NewApp.tsx:176 | moving back from `to` to `from` restores the original sequence |
| Sortable.ArrayMoveSame | src/NewApp/NewApp.tsx:171-177 | a move onto the same index changes nothing |
| GridItem.FindIndex | src/NewApp/NewApp.tsx:172-173 | `findIndex` by id yields -1 exactly when the id is absent, and otherwise the first position holding it |
| GridItem.FindById | src/NewApp/NewApp.tsx:127-136 | lookup by id returns the first item of the row carrying that id, as `find` does, and fails exactly when the id is absent |
| GridItem.RemoveId | src/NewApp/NewApp.tsx:200-206 | filtering out an id keeps exactly the items with another id and removes that id from the row's id set |
| GridItem.RemoveIdAbsent | src/NewApp/NewApp.tsx:95 | filtering out an absent id changes nothing |
| GridItem.RemoveIdAt | src/NewApp/NewApp.tsx:200-206 | in a row with unique ids, filtering out the id at position k deletes exactly that position and keeps the others in order |
| GridItem.RemoveIdIdempotent | src/NewApp/NewApp.tsx:95 | filtering the same id out twice is the same as once |
| GridItem.RemoveIdUnique | src/NewApp/NewApp.tsx:200-206 | filtering keeps ids unique and removes exactly one occurrence of the item from the multiset when the id is present |
| GridItem.UniqueIdsArrayMove | src/NewApp/NewApp.tsx:176 | reordering a row keeps its ids unique |
| GridDroppable.UsedWidth | src/NewApp/GridDroppable.tsx:23 | the `reduce` over a row, a left fold, adds up the same widths as the plain front-to-back sum |
| GridDroppable.UsedWidthBounds | src/NewApp/GridDroppable.tsx:23 | an empty row uses nothing; used width is never negative for non-negative widths and is at least the item count for positive widths |
| GridDroppable.UsedWidthAppend | src/NewApp/GridDroppable.tsx:23 | appending an item grows the used width by exactly its width |
| GridDroppable.UsedWidthConcat | src/NewApp/GridDroppable.tsx:23 | the used width of two rows joined is the sum of their used widths |
| GridDroppable.UsedWidthRemoveAt | src/NewApp/GridDroppable.tsx:23 | deleting the item at position k frees exactly its width |
| GridDroppable.UsedWidthInsertAt | src/NewApp/GridDroppable.tsx:23 | inserting an item anywhere costs exactly its width |
| GridDroppable.UsedWidthArrayMove | src/NewApp/NewApp.tsx:176 | reordering a row leaves its used width unchanged |
| GridDroppable.RemainingWidth | src/NewApp/GridDroppable.tsx:24 | remaining width is not clamped: it is negative exactly when the row uses more than its capacity |
| GridDroppable.Fits | src/NewApp/NewApp.tsx:185-190 | an item passes the drop's capacity test exactly when the row's used width plus the item's width stays within the groove |
| GridDroppable.FitsIffWithinRemaining | src/NewApp/NewApp.tsx:185-196 | the drop's capacity test accepts an item exactly when its width is at most the remaining width the row displays, and an accepted append stays within capacity |
| GridDroppable.IsFull | src/NewApp/GridDroppable.tsx:77-78 | a row is highlighted as full exactly when its used width equals the groove width |
| GridDroppable.FullRowAcceptsNothing | src/NewApp/GridDroppable.tsx:77-78 | a row highlighted as full has used exactly its capacity and refuses every item of positive width |
| Boards.FindByName | src/NewApp/NewApp.tsx:251 | lookup by name returns the first board in the list with that name, as `find` does; none is found exactly when no entry has the name |
| Boards.FindBoard | src/NewApp/data/boards.ts:3-34 | lookup in the three-entry catalogue succeeds exactly for a catalogue name |
| Boards.DefaultBoardIsMedium | src/NewApp/NewApp.tsx:33-35 | the editor opens on the Medium board with a 325-unit groove, which lookup by its name finds again |
| ItemPicker.Without | src/NewApp/ItemPicker.tsx:10 | filtering a number out keeps exactly the other numbers and shortens the list when the number was there |
| ItemPicker.Toggle | src/NewApp/ItemPicker.tsx:6-12 | an unselected number is appended at the end; a selected one leaves the list; every other number keeps its membership |
| ItemPicker.WithoutAbsent | src/NewApp/ItemPicker.tsx:10 | filtering out a number that is not selected changes nothing |
| ItemPicker.ToggleSelectedRemovesInPlace | src/NewApp/ItemPicker.tsx:9-10 | clicking a selected number deletes just its position; the others keep their order |
| ItemPicker.ToggleKeepsNoDuplicates | src/NewApp/ItemPicker.tsx:6-12 | a duplicate-free selection stays duplicate-free |
| ItemPicker.ToggleTwiceRestores | src/NewApp/ItemPicker.tsx:6-12 | clicking an unselected number twice restores the original list |
| ItemPicker.IsSelected | src/NewApp/ItemPicker.tsx:14-16 | a number is selected exactly when some position of the list holds it |
| ItemPicker.ToggleFlipsOnlyClicked | src/NewApp/ItemPicker.tsx:14-16 | after a click the clicked number's selection state is flipped and every other number's is kept |
| ItemPicker.ClickableRange | src/NewApp/ItemPicker.tsx:20-24 | the tiles carry exactly the numbers 1 through 50 |
| ItemPicker.ToggleStaysClickable | src/NewApp/ItemPicker.tsx:20-24 | toggling tile numbers keeps the selection within 1..50 |
| NewApp.ParseTarget | src/NewApp/NewApp.tsx:161-164 | a drop-target id is classified as exactly one bucket when it names one, as an unlisted grid when it starts with `grid-` and names none, and as foreign otherwise |
| NewApp.GridItemsRoundTrip | src/NewApp/NewApp.tsx:98-123 | reading a row after writing it gives what was written (nothing for a non-row id), writing back what was read changes nothing, and other targets are unaffected |
| NewApp.GetGridItems | src/NewApp/NewApp.tsx:98-109 | a row id reads that row's items; the pool and any other id read as an empty row, which uses no width |
| NewApp.SetGridItems | src/NewApp/NewApp.tsx:111-123 | writing replaces the named row and no other bucket; the pool and unknown ids are ignored |
| NewApp.LocateFrom | src/NewApp/NewApp.tsx:125-140 | the scan from position i finds the id in the first bucket at or after i that holds it, and fails when none does |
| NewApp.Locate | src/NewApp/NewApp.tsx:125-140 | the owning bucket found is the first in the order pool, grid-1, grid-2, grid-3 to hold the id; none is found exactly when no bucket holds it |
| NewApp.DropTarget | src/NewApp/NewApp.tsx:161-164 | an item id resolves to its owning bucket, and any other id is classified by name |
| NewApp.CalculateHeight | src/NewApp/NewApp.tsx:54-58 | the height is between 1 and 3, 1 exactly for widths up to 3 and 3 exactly for widths over 7 |
| NewApp.CalculateHeightMonotone | src/NewApp/NewApp.tsx:54-58 | a wider item is never shorter |
| NewApp.Initial | src/NewApp/NewApp.tsx:33-51 | the editor opens with the seed items in the pool, empty rows, the default board, and the counter one past the number of seed items |
| NewApp.CreateNewItem | src/NewApp/NewApp.tsx:78-92 | the pool gains one item at its end, built from the template under id `item-<counter>` with the height `calculateHeight` gives its width, the counter advances and nothing else changes |
| NewApp.RemoveItemFromAvailable | src/NewApp/NewApp.tsx:94-96 | the pool keeps exactly its items with another id, and the rows, board and counter are untouched |
| NewApp.SelectBoard | src/NewApp/NewApp.tsx:250-253 | the buckets never change; an unknown name changes nothing and a known one selects the catalogue board with that name |
| NewApp.Reorder | src/NewApp/NewApp.tsx:167-179 | a reorder permutes the row, keeps its used width and leaves every other bucket alone |
| NewApp.MoveItem | src/NewApp/NewApp.tsx:198-215 | the item is filtered out of its source, appended to the target when the target is a bucket, and every other bucket is unchanged |
| NewApp.DragEnd | src/NewApp/NewApp.tsx:149-216 | no target, or a dragged id in no bucket, changes nothing; a refusal always reports a need larger than what remains |
| PlacementProofs.InitialIsValid | src/NewApp/NewApp.tsx:37-51 | the opening state, five seed items in the pool with the counter at 6, satisfies the invariant and holds the ids item-1 to item-5 |
| PlacementProofs.LocateOwner | src/NewApp/NewApp.tsx:125-140 | in a valid state the lookup returns the one bucket holding the id and the item at its position there |
| PlacementProofs.DropTargetResolves | src/NewApp/NewApp.tsx:161-164 | in a valid state a drop resolves to bucket b exactly when the target is b's id or an item in b; otherwise it is an unlisted grid or foreign |
| PlacementProofs.DragEndDecision | src/NewApp/NewApp.tsx:166-215 | a drop on the own bucket reorders a row or does nothing in the pool; any other drop is refused exactly when the target is a grid and the item is wider than the remaining width, and otherwise moves the item |
| PlacementProofs.ReorderIndices | src/NewApp/NewApp.tsx:171-177 | a reorder is a no-op when either index is missing or both coincide, and is `arrayMove(old, new)` otherwise |
| PlacementProofs.DropOnOwnPoolIsNoOp | src/NewApp/NewApp.tsx:182 | dropping a pool item anywhere on the pool changes nothing |
| PlacementProofs.DropWithinRowReorders | src/NewApp/NewApp.tsx:166-179 | a drop inside the own row is always applied as `arrayMove`, permutes the row, keeps its width and touches nothing else |
| PlacementProofs.DropIntoOtherBucket | src/NewApp/NewApp.tsx:184-215 | a drop into another bucket is refused exactly when that bucket is a row without room, reporting the item's width and the room left; otherwise the item leaves its source at its position and is appended to the target |
| PlacementProofs.MoveKeepsPartition | src/NewApp/NewApp.tsx:198-215 | a move keeps the invariant and the multiset of items, and leaves the id in exactly the target bucket |
| PlacementProofs.LossKeepsPartition | src/NewApp/NewApp.tsx:198-207 | removing an item without adding it anywhere keeps the invariant, loses exactly that item, and keeps rows within capacity |
| PlacementProofs.ReorderKeepsPartition | src/NewApp/NewApp.tsx:167-179 | a permutation of one row with unique ids keeps the invariant and the multiset of items |
| PlacementProofs.DropOnUnknownTargetLosesItem | src/NewApp/NewApp.tsx:184-215 | a drop on an id that is neither an item nor a bucket is refused only for an unlisted grid too narrow for the item; otherwise the item is deleted from its source and placed nowhere |
| PlacementProofs.DragEndPreservesValid | src/NewApp/NewApp.tsx:149-216 | every applied drag end keeps the invariant, and keeps every row within capacity when it was |
| PlacementProofs.DragEndConservesItems | src/NewApp/NewApp.tsx:149-216 | an applied drag end on a known target keeps every item; one on an unknown target loses exactly the dragged item |
| HandlerProofs.CreateNewItemKeepsValid | src/NewApp/NewApp.tsx:78-92 | creation from an offered template hands out an unused id, keeps the invariant and capacity, and adds exactly the new item |
| HandlerProofs.CreatedIdsAreFresh | src/NewApp/NewApp.tsx:84-91 | two successive creations hand out two different ids, each new to the editor |
| HandlerProofs.CreatedItemsAreTall | src/NewApp/NewApp.tsx:37-76 | every template gives a height-3 item, and no seed item has the height its width would give |
| HandlerProofs.RemoveItemFromAvailableSpec | src/NewApp/NewApp.tsx:94-96 | deletion keeps the invariant and is idempotent; an id outside the pool changes nothing; a pool id is deleted at its position with the order kept, and exactly that item leaves the editor |
| HandlerProofs.SelectBoardKeepsValid | src/NewApp/NewApp.tsx:250-253 | switching boards keeps the invariant and every item |
| HandlerProofs.SelectBoardNames | src/NewApp/NewApp.tsx:250-253 | the names Small, Medium and Large pick the respective catalogue board, and any other name changes nothing |
| HandlerProofs.ShrinkingBoardCanOverfillRow | src/NewApp/NewApp.tsx:250-253 | a valid state within capacity on the large board is over capacity after selecting the small one |
| HandlerProofs.OversizedItemIsRefused | src/NewApp/NewApp.tsx:184-196 | an item wider than the board's groove is refused by every row it is dropped on |
| HandlerProofs.BigTemplateFitsNoBoard | src/NewApp/NewApp.tsx:61-76 | the 800-unit "Big" template is wider than every board's groove |

## Left out

- Rendering: JSX, styles, the CSS grid layout and the icon components are presentation only.
- The dnd-kit hooks, sensors, `DragOverlay` and transform math are library calls. Only `arrayMove`'s documented semantics is restated, as `Sortable.ArrayMove`.
- `handleDragStart` and the `activeItem` state (src/NewApp/NewApp.tsx:142-147) feed only a commented-out overlay.
- The `alert` on a refused drop is a side effect. It is modelled as the `NoRoom` result carrying the needed and remaining widths.
- React's batched state updates are not modelled. Each handler is one atomic transition on a snapshot. The two setter calls of a move touch different buckets, so batching does not change their joint effect.
- The board's label, description, price and stock flag do not affect placement.
- The modal and radio widgets around the number picker are not modelled.
- Click-to-add and long-press menu gestures do not occur in the code.
- Widths are unbounded integers; JavaScript numbers are doubles. Positivity of widths is part of the invariant, and all template and seed widths are small positive integers.
- HandlerProofs.CreatedIdsAreFresh: the counter is an unbounded natural number. In the code `itemCounter` is a JavaScript number, so `itemCounter + 1` stops advancing at 2^53, and from then on every creation hands out the same id. The freshness part of `PlacementInvariants.Valid`, and every lemma that relies on it, likewise holds only for the unbounded counter.
- HandlerProofs.CreateNewItemKeepsValid: proved only for the six offered templates. `createNewItem` accepts any template, and one with a non-positive width would break the positive-width part of the invariant.
- The number picker's selection is not connected to the placement state, as in the code.

=== FILE: boards.dfy ===
/** The static board catalogue. A board's groove width is the capacity of each row. */
module Boards {
  import opened Wrappers

  datatype SizeKey = Small | Medium | Large | ExtraLarge

  /** Price, label, description and stock flag are display-only and omitted. */
  datatype Board = Board(size: SizeKey, boardWidth: int, grooveWidth: int, name: string)

  const BoardSizes: seq<Board> := [
    Board(Small, 254, 224, "Small"),
    Board(Medium, 355, 325, "Medium"),
    Board(Large, 457, 427, "Large")
  ]

  /** The board active when the editor opens. */
  const DefaultBoard: Board := BoardSizes[1]

  /** `boards.find((b) => b.name === name)`: the first board with that name. */
  function FindByName(boards: seq<Board>, name: string): (r: Option<Board>)
    ensures r.Some? ==> r.value in boards && r.value.name == name
    ensures r.None? <==> forall k :: 0 <= k < |boards| ==> boards[k].name != name
    ensures r.Some? ==> exists k :: 0 <= k < |boards| && boards[k] == r.value
                                    && forall j :: 0 <= j < k ==> boards[j].name != name
    decreases |boards|
  {
    if |boards| == 0 then None
    else if boards[0].name == name then Some(boards[0])
    else
      var r := FindByName(boards[1..], name);
      assert forall k :: 1 <= k < |boards| ==> boards[k] == boards[1..][k - 1];
      if r.Some? then
        var k :| 0 <= k < |boards[1..]| && boards[1..][k] == r.value
                 && forall j :: 0 <= j < k ==> boards[1..][j].name != name;
        assert boards[k + 1] == r.value;
        assert forall j :: 0 <= j < k + 1 ==> boards[j].name != name;
        r
      else r
  }

  /** The catalogue lookup by display name. */
  function FindBoard(name: string): (r: Option<Board>)
    ensures r.Some? ==> r.value in BoardSizes && r.value.name == name
    ensures r.None? <==> forall k :: 0 <= k < |BoardSizes| ==> BoardSizes[k].name != name
  {
    FindByName(BoardSizes, name)
  }

  /** The default is the medium board, whose rows hold 325 units. */
  lemma DefaultBoardIsMedium()
    ensures DefaultBoard in BoardSizes
    ensures DefaultBoard.name == "Medium" && DefaultBoard.grooveWidth == 325
    ensures FindBoard(DefaultBoard.name) == Some(DefaultBoard)
  {
  }
}

=== FILE: decimal.dfy ===
/** Decimal rendering of a natural number, as a JavaScript template literal
    writes an integer-valued number (`item-${itemCounter}`). */
module Decimal {

  function Digit(d: nat): (c: char)
    requires d < 10
    ensures '0' <= c <= '9'
    ensures c as int - '0' as int == d
  {
    ('0' as int + d) as char
  }

  /** The number a string of decimal digits denotes, most significant first. */
  function DecimalValue(s: string): int
    decreases |s|
  {
    if |s| == 0 then 0 else 10 * DecimalValue(s[..|s| - 1]) + (s[|s| - 1] as int - '0' as int)
  }

  /** Most significant digit first, no leading zeros, "0" for zero; reading
      the digits back gives the number. */
  function NatToString(n: nat): (r: string)
    ensures |r| >= 1
    ensures forall i :: 0 <= i < |r| ==> '0' <= r[i] <= '9'
    ensures n >= 10 ==> |r| >= 2
    ensures r[0] == '0' ==> n == 0 && |r| == 1
    ensures DecimalValue(r) == n
    decreases n
  {
    if n < 10 then [Digit(n)]
    else
      var p := NatToString(n / 10);
      var r := p + [Digit(n % 10)];
      assert r[..|r| - 1] == p;
      r
  }

  /** Different numbers render as different strings: each string reads back
      as its own number. */
  lemma NatToStringInjective(a: nat, b: nat)
    requires NatToString(a) == NatToString(b)
    ensures a == b
  {
    assert a == DecimalValue(NatToString(a)) == DecimalValue(NatToString(b)) == b;
  }
}

=== FILE: grid_droppable.dfy ===
/** The capacity figures a row displays: used width, remaining width and the
    "full" highlight. The same used/remaining computation gates drops into a row. */
module GridDroppable {
  import opened GridItem
  import opened Sortable

  /** The total width of a row, summed front to back. */
  function SumWidths(items: seq<Item>): int
    decreases |items|
  {
    if |items| == 0 then 0 else items[0].width + SumWidths(items[1..])
  }

  /** Summing front to back, the last item comes last. */
  lemma {:induction false} SumWidthsSnoc(items: seq<Item>, x: Item)
    ensures SumWidths(items + [x]) == SumWidths(items) + x.width
    decreases |items|
  {
    if |items| == 0 {
      assert (items + [x])[1..] == [];
    } else {
      assert (items + [x])[1..] == items[1..] + [x];
      SumWidthsSnoc(items[1..], x);
    }
  }

  /** `items.reduce((sum, item) => sum + item.width, 0)`: a left fold, which
      adds up the same widths as the front-to-back sum. */
  function UsedWidth(items: seq<Item>): (r: int)
    ensures r == SumWidths(items)
    decreases |items|
  {
    if |items| == 0 then 0
    else
      var init, last := items[..|items| - 1], items[|items| - 1];
      assert items == init + [last];
      SumWidthsSnoc(init, last);
      UsedWidth(init) + last.width
  }

  /** An empty row uses nothing, a row of items with positive widths uses at
      least one unit per item, and a row of non-negative widths never reports a
      negative usage. */
  lemma {:induction false} UsedWidthBounds(items: seq<Item>)
    ensures items == [] ==> UsedWidth(items) == 0
    ensures (forall x :: x in items ==> x.width >= 0) ==> UsedWidth(items) >= 0
    ensures (forall x :: x in items ==> x.width > 0) ==> UsedWidth(items) >= |items|
    decreases |items|
  {
    if |items| > 0 {
      var init := items[..|items| - 1];
      assert forall x :: x in init ==> x in items;
      UsedWidthBounds(init);
    }
  }

  /** `maxWidth - usedWidth`, deliberately not clamped at zero. */
  function RemainingWidth(maxWidth: int, items: seq<Item>): (r: int)
    ensures r < 0 <==> UsedWidth(items) > maxWidth
  {
    maxWidth - UsedWidth(items)
  }

  /** The row is highlighted as full exactly when nothing remains. */
  predicate IsFull(maxWidth: int, items: seq<Item>)
    ensures IsFull(maxWidth, items) <==> UsedWidth(items) == maxWidth
  {
    RemainingWidth(maxWidth, items) == 0
  }

  /** The capacity test of a drop: an item is turned away when its width exceeds
      what the row has left. */
  predicate Fits(maxWidth: int, items: seq<Item>, width: int)
    ensures Fits(maxWidth, items, width) <==> UsedWidth(items) + width <= maxWidth
  {
    width <= maxWidth - UsedWidth(items)
  }

  /** Appending an item grows the used width by exactly its width. */
  lemma UsedWidthAppend(items: seq<Item>, x: Item)
    ensures UsedWidth(items + [x]) == UsedWidth(items) + x.width
  {
    assert (items + [x])[..|items|] == items;
  }

  /** The used width of a concatenation is the sum of the parts. */
  lemma {:induction false} UsedWidthConcat(a: seq<Item>, b: seq<Item>)
    ensures UsedWidth(a + b) == UsedWidth(a) + UsedWidth(b)
    decreases |b|
  {
    if |b| > 0 {
      var b' := b[..|b| - 1];
      assert a + b == (a + b') + [b[|b| - 1]];
      assert b == b' + [b[|b| - 1]];
      UsedWidthAppend(a + b', b[|b| - 1]);
      UsedWidthAppend(b', b[|b| - 1]);
      UsedWidthConcat(a, b');
    } else {
      assert a + b == a;
    }
  }

  lemma UsedWidthSingle(x: Item)
    ensures UsedWidth([x]) == x.width
  {
    assert [x][..0] == [];
  }

  /** The used width splits around any position. */
  lemma UsedWidthSplit(items: seq<Item>, k: nat)
    requires k < |items|
    ensures UsedWidth(items) == UsedWidth(items[..k]) + items[k].width + UsedWidth(items[k + 1..])
  {
    var pre, post := items[..k], items[k + 1..];
    assert items == (pre + [items[k]]) + post;
    UsedWidthConcat(pre + [items[k]], post);
    UsedWidthAppend(pre, items[k]);
  }

  /** Deleting the item at position k frees exactly its width. */
  lemma UsedWidthRemoveAt(items: seq<Item>, k: nat)
    requires k < |items|
    ensures UsedWidth(RemoveAt(items, k)) == UsedWidth(items) - items[k].width
  {
    UsedWidthSplit(items, k);
    UsedWidthConcat(items[..k], items[k + 1..]);
  }

  /** Inserting an item anywhere costs exactly its width. */
  lemma UsedWidthInsertAt(items: seq<Item>, j: nat, x: Item)
    requires j <= |items|
    ensures UsedWidth(InsertAt(items, j, x)) == UsedWidth(items) + x.width
  {
    var pre, post := items[..j], items[j..];
    UsedWidthConcat(pre + [x], post);
    UsedWidthAppend(pre, x);
    UsedWidthConcat(pre, post);
    TakeDropJoin(items, j);
  }

  /** Reordering a row never changes how much of it is used. */
  lemma UsedWidthArrayMove(items: seq<Item>, from: nat, to: nat)
    requires from < |items| && to < |items|
    ensures UsedWidth(ArrayMove(items, from, to)) == UsedWidth(items)
  {
    UsedWidthRemoveAt(items, from);
    UsedWidthInsertAt(RemoveAt(items, from), to, items[from]);
  }

  /** The displayed remaining width is the threshold of the drop test: an item
      fits exactly when its width is at most what the row shows as remaining,
      and after an accepted append the row is still within its capacity and
      shows the remainder reduced by the item's width. */
  lemma FitsIffWithinRemaining(maxWidth: int, items: seq<Item>, x: Item)
    ensures Fits(maxWidth, items, x.width) <==> x.width <= RemainingWidth(maxWidth, items)
    ensures Fits(maxWidth, items, x.width) ==>
              UsedWidth(items + [x]) <= maxWidth
              && RemainingWidth(maxWidth, items + [x]) == RemainingWidth(maxWidth, items) - x.width
  {
    UsedWidthAppend(items, x);
  }

  /** A row shown as full has used exactly its capacity and accepts no item of
      positive width. */
  lemma FullRowAcceptsNothing(maxWidth: int, items: seq<Item>, width: int)
    requires IsFull(maxWidth, items) && width > 0
    ensures UsedWidth(items) == maxWidth
    ensures !Fits(maxWidth, items, width)
  {
  }
}

=== FILE: grid_item.dfy ===
/** The item record (`GridItemData`) and the id-keyed sequence operations the
    handlers use on it: `findIndex`/`find` by id and `filter` by id. */
module GridItem {
  import opened Wrappers
  import opened Sortable

  /** A piece. `width` is in grid units and is what a row's capacity is spent on;
      `height` is decorative. */
  datatype Item = Item(id: string, text: string, width: int, height: int, backgroundImage: Option<string>)

  /** The ids present in a sequence of items. */
  function IdSet(xs: seq<Item>): set<string>
  {
    set i | 0 <= i < |xs| :: xs[i].id
  }

  /** No id occurs twice. */
  ghost predicate UniqueIds(xs: seq<Item>)
  {
    forall i, j :: 0 <= i < j < |xs| ==> xs[i].id != xs[j].id
  }

  lemma IdSetCons(xs: seq<Item>)
    requires |xs| > 0
    ensures IdSet(xs) == {xs[0].id} + IdSet(xs[1..])
  {
    forall id | id in IdSet(xs)
      ensures id in {xs[0].id} + IdSet(xs[1..])
    {
      var i :| 0 <= i < |xs| && xs[i].id == id;
      if i > 0 {
        assert xs[1..][i - 1].id == id;
      }
    }
    forall id | id in IdSet(xs[1..])
      ensures id in IdSet(xs)
    {
      var i :| 0 <= i < |xs[1..]| && xs[1..][i].id == id;
      assert xs[i + 1].id == id;
    }
  }

  lemma IdSetAppend(xs: seq<Item>, x: Item)
    ensures IdSet(xs + [x]) == IdSet(xs) + {x.id}
  {
    var ys := xs + [x];
    forall id | id in IdSet(ys)
      ensures id in IdSet(xs) + {x.id}
    {
      var i :| 0 <= i < |ys| && ys[i].id == id;
      if i < |xs| {
        assert xs[i].id == id;
      }
    }
    assert ys[|xs|].id == x.id;
    forall id | id in IdSet(xs)
      ensures id in IdSet(ys)
    {
      var i :| 0 <= i < |xs| && xs[i].id == id;
      assert ys[i].id == id;
    }
  }

  /** `findIndex(i => i.id === id)`: the first position holding the id, or -1. */
  function FindIndex(xs: seq<Item>, id: string): (r: int)
    ensures -1 <= r < |xs|
    ensures r == -1 <==> id !in IdSet(xs)
    ensures r >= 0 ==> xs[r].id == id && forall k :: 0 <= k < r ==> xs[k].id != id
    decreases |xs|
  {
    if |xs| == 0 then -1
    else
      IdSetCons(xs);
      if xs[0].id == id then 0
      else
        var k := FindIndex(xs[1..], id);
        if k == -1 then -1 else k + 1
  }

  /** `find(i => i.id === id)`: the first item carrying the id. */
  function FindById(xs: seq<Item>, id: string): (r: Option<Item>)
    ensures r.None? <==> id !in IdSet(xs)
    ensures r.Some? ==> r.value in xs && r.value.id == id
    ensures r.Some? ==> r.value == xs[FindIndex(xs, id)]
    ensures r.Some? ==> exists k :: 0 <= k < |xs| && xs[k] == r.value && forall j :: 0 <= j < k ==> xs[j].id != id
  {
    var k := FindIndex(xs, id);
    if k == -1 then None else Some(xs[k])
  }

  /** `filter(i => i.id !== id)`. */
  function RemoveId(xs: seq<Item>, id: string): (r: seq<Item>)
    ensures forall x :: x in r <==> x in xs && x.id != id
    ensures IdSet(r) == IdSet(xs) - {id}
    ensures |r| <= |xs|
    decreases |xs|
  {
    if |xs| == 0 then []
    else
      IdSetCons(xs);
      var rest := RemoveId(xs[1..], id);
      if xs[0].id == id then rest
      else
        IdSetCons([xs[0]] + rest);
        assert ([xs[0]] + rest)[1..] == rest;
        [xs[0]] + rest
  }

  /** Filtering out an id that is absent returns the sequence unchanged. */
  lemma {:induction false} RemoveIdAbsent(xs: seq<Item>, id: string)
    requires id !in IdSet(xs)
    ensures RemoveId(xs, id) == xs
    decreases |xs|
  {
    if |xs| > 0 {
      IdSetCons(xs);
      RemoveIdAbsent(xs[1..], id);
      assert xs == [xs[0]] + xs[1..];
    }
  }

  /** With unique ids, filtering out the id at position k deletes exactly that
      position and keeps every other item in its original order. */
  lemma {:induction false} RemoveIdAt(xs: seq<Item>, id: string, k: nat)
    requires UniqueIds(xs)
    requires k < |xs| && xs[k].id == id
    ensures RemoveId(xs, id) == xs[..k] + xs[k + 1..]
    decreases |xs|
  {
    var tail := xs[1..];
    if k == 0 {
      forall i | 0 <= i < |tail|
        ensures tail[i].id != id
      {
        assert tail[i] == xs[i + 1];
      }
      RemoveIdAbsent(tail, id);
      assert xs[..0] + xs[1..] == tail;
    } else {
      calc {
        RemoveId(xs, id);
        == { assert xs[0].id != xs[k].id; }
        [xs[0]] + RemoveId(tail, id);
        == { UniqueIdsTail(xs); RemoveIdAt(tail, id, k - 1); }
        [xs[0]] + (tail[..k - 1] + tail[k..]);
        == { assert tail[..k - 1] == xs[1..k] && tail[k..] == xs[k + 1..]; }
        [xs[0]] + (xs[1..k] + xs[k + 1..]);
        == { assert [xs[0]] + xs[1..k] == xs[..k]; }
        xs[..k] + xs[k + 1..];
      }
    }
  }

  lemma UniqueIdsTail(xs: seq<Item>)
    requires UniqueIds(xs) && |xs| > 0
    ensures UniqueIds(xs[1..])
  {
    var tail := xs[1..];
    forall i, j | 0 <= i < j < |tail|
      ensures tail[i].id != tail[j].id
    {
      assert tail[i] == xs[i + 1] && tail[j] == xs[j + 1];
    }
  }

  /** Filtering by id twice is the same as filtering once. */
  lemma RemoveIdIdempotent(xs: seq<Item>, id: string)
    ensures RemoveId(RemoveId(xs, id), id) == RemoveId(xs, id)
  {
    RemoveIdAbsent(RemoveId(xs, id), id);
  }

  /** Deleting one position keeps ids unique. */
  lemma UniqueIdsRemoveAt(xs: seq<Item>, k: nat)
    requires UniqueIds(xs) && k < |xs|
    ensures UniqueIds(xs[..k] + xs[k + 1..])
  {
    var ys := xs[..k] + xs[k + 1..];
    forall i, j | 0 <= i < j < |ys|
      ensures ys[i].id != ys[j].id
    {
      var i' := if i < k then i else i + 1;
      var j' := if j < k then j else j + 1;
      assert ys[i] == xs[i'] && ys[j] == xs[j'];
    }
  }

  /** Filtering by id keeps ids unique, and with unique ids it drops at most the
      one item carrying that id. */
  lemma RemoveIdUnique(xs: seq<Item>, id: string)
    requires UniqueIds(xs)
    ensures UniqueIds(RemoveId(xs, id))
    ensures id in IdSet(xs) ==> exists k :: 0 <= k < |xs| && xs[k].id == id
                                  && multiset(RemoveId(xs, id)) + multiset{xs[k]} == multiset(xs)
    ensures id !in IdSet(xs) ==> RemoveId(xs, id) == xs
  {
    var k := FindIndex(xs, id);
    if k == -1 {
      RemoveIdAbsent(xs, id);
    } else {
      var r := RemoveId(xs, id);
      assert r == xs[..k] + xs[k + 1..] by {
        RemoveIdAt(xs, id, k);
      }
      assert UniqueIds(r) by {
        UniqueIdsRemoveAt(xs, k);
      }
      assert multiset(r) + multiset{xs[k]} == multiset(xs) by {
        MultisetRemoveAt(xs, k);
      }
    }
  }

  /** Deleting one position removes exactly that item from the multiset. */
  lemma MultisetRemoveAt(xs: seq<Item>, k: nat)
    requires k < |xs|
    ensures multiset(xs[..k] + xs[k + 1..]) + multiset{xs[k]} == multiset(xs)
  {
    assert xs == xs[..k] + [xs[k]] + xs[k + 1..];
  }

  /** Appending an item whose id is new keeps ids unique. */
  lemma UniqueIdsAppend(xs: seq<Item>, x: Item)
    requires UniqueIds(xs) && x.id !in IdSet(xs)
    ensures UniqueIds(xs + [x])
  {
    var ys := xs + [x];
    forall i, j | 0 <= i < j < |ys|
      ensures ys[i].id != ys[j].id
    {
      if j == |xs| {
        assert xs[i].id in IdSet(xs);
      } else {
        assert ys[i] == xs[i] && ys[j] == xs[j];
      }
    }
  }

  /** Two items with the same id in a uniquely-keyed sequence are the same item. */
  lemma UniqueIdsSameItem(xs: seq<Item>, x: Item, k: nat)
    requires UniqueIds(xs) && x in xs && k < |xs| && xs[k].id == x.id
    ensures xs[k] == x
  {
    var j :| 0 <= j < |xs| && xs[j] == x;
    assert j == k;
  }
  /** Sequences with the same members carry the same ids. */
  lemma IdSetSameMembers(xs: seq<Item>, ys: seq<Item>)
    requires forall x :: x in xs <==> x in ys
    ensures IdSet(xs) == IdSet(ys)
  {
    forall id | id in IdSet(xs)
      ensures id in IdSet(ys)
    {
      var i :| 0 <= i < |xs| && xs[i].id == id;
      assert xs[i] in ys;
      var j :| 0 <= j < |ys| && ys[j] == xs[i];
    }
    forall id | id in IdSet(ys)
      ensures id in IdSet(xs)
    {
      var j :| 0 <= j < |ys| && ys[j].id == id;
      assert ys[j] in xs;
      var i :| 0 <= i < |xs| && xs[i] == ys[j];
    }
  }

  /** Moving one item inside a sequence keeps its ids unique. */
  lemma UniqueIdsArrayMove(xs: seq<Item>, from: nat, to: nat)
    requires UniqueIds(xs) && from < |xs| && to < |xs|
    ensures UniqueIds(ArrayMove(xs, from, to))
  {
  }
}

=== FILE: handler_proofs.dfy ===
/** Properties of the handlers other than drag end: creating an item from a
    template, deleting an item from the pool, and switching boards. */
module HandlerProofs {
  import opened Wrappers
  import opened Decimal
  import opened GridItem
  import opened GridDroppable
  import opened Boards
  import opened NewApp
  import opened PlacementInvariants
  import opened PlacementProofs

  // ---------------------------------------------------------------- create

  /** Every template the item creator offers has a positive width. */
  lemma TemplatesArePositive()
    ensures forall t :: t in ItemTemplates ==> t.width > 0
  {
  }

  /** The pool after creation is still a well-formed row that also holds the
      new id, and no grid row holds it. */
  lemma CreateFacts(s: Placement, t: Template)
    requires forall b :: WellFormedRow(Items(s, b))
    requires ItemId(s.counter) !in AllIds(s)
    requires t.width > 0
    ensures var r := CreateNewItem(s, t);
            && (forall b :: WellFormedRow(Items(r, b)))
            && (forall b :: IdSet(Items(r, b)) <= IdSet(Items(s, b)) + (if b == Available then {ItemId(s.counter)} else {}))
            && (forall b :: b != Available ==> ItemId(s.counter) !in IdSet(Items(r, b)))
  {
    var r := CreateNewItem(s, t);
    var x := r.available[|s.available|];
    assert r.available == s.available + [x];
    AllIdsCover(s);
    assert WellFormedRow(s.available) by {
      assert Items(s, Available) == s.available;
    }
    UniqueIdsAppend(s.available, x);
    IdSetAppend(s.available, x);
    assert WellFormedRow(Items(r, Available));
    assert forall b :: b != Available ==> Items(r, b) == Items(s, b);
  }

  /** `createNewItem` from one of the offered templates keeps the invariant:
      the id it hands out was free, the new item is the only addition, and
      rows are untouched so their capacity is too. */
  lemma CreateNewItemKeepsValid(s: Placement, t: Template)
    requires Valid(s) && t in ItemTemplates
    ensures var r := CreateNewItem(s, t);
            && ItemId(s.counter) !in AllIds(s)
            && Valid(r)
            && Bag(r) == Bag(s) + multiset{r.available[|s.available|]}
            && (WithinCapacity(s) ==> WithinCapacity(r))
  {
    var r := CreateNewItem(s, t);
    var id := ItemId(s.counter);
    assert id !in AllIds(s);
    assert t.width > 0 by {
      TemplatesArePositive();
    }
    CreateFacts(s, t);
    assert exists n: nat :: n == s.counter < r.counter && id == ItemId(n);
    ValidAfterTransfer(s, r, id, Available);
    CreateAddsOneItem(s, t);
  }

  /** Creation adds exactly the new item and leaves the rows alone. */
  lemma CreateAddsOneItem(s: Placement, t: Template)
    ensures var r := CreateNewItem(s, t);
            && Bag(r) == Bag(s) + multiset{r.available[|s.available|]}
            && (WithinCapacity(s) ==> WithinCapacity(r))
  {
    var r := CreateNewItem(s, t);
    var x := r.available[|s.available|];
    assert r.available == s.available + [x];
    assert multiset(Items(s, Available)) + multiset{x} == multiset(Items(r, Available));
    assert forall b :: b != Available ==> Items(r, b) == Items(s, b);
    BagDrop(r, s, Available, multiset{x});
  }

  /** Ids handed out by two successive creations differ, and differ from every
      id already in the editor. */
  lemma CreatedIdsAreFresh(s: Placement, t1: Template, t2: Template)
    requires Valid(s) && t1 in ItemTemplates
    ensures var r1 := CreateNewItem(s, t1);
            var r2 := CreateNewItem(r1, t2);
            var id1, id2 := r1.available[|s.available|].id, r2.available[|r1.available|].id;
            && id1 != id2 && id1 !in AllIds(s) && id2 !in AllIds(r1)
  {
    var r1 := CreateNewItem(s, t1);
    CreateNewItemKeepsValid(s, t1);
    if ItemId(s.counter) == ItemId(r1.counter) {
      ItemIdInjective(s.counter, r1.counter);
    }
  }

  /** Every offered template is wider than 7 units, so every created item is
      three grid units tall, whereas the seed items carry heights 1 and 2. */
  lemma CreatedItemsAreTall()
    ensures forall t :: t in ItemTemplates ==> CalculateHeight(t.width) == 3
    ensures forall k :: 0 <= k < |SeedItems| ==> SeedItems[k].height != CalculateHeight(SeedItems[k].width)
  {
  }

  // ---------------------------------------------------------------- delete

  /** `removeItemFromAvailable` deletes a pool item and keeps the others in
      order; an id not in the pool, including one placed in a row, changes
      nothing. It keeps the invariant, is idempotent, and the only item that
      leaves the editor is the deleted one. */
  lemma RemoveItemFromAvailableSpec(s: Placement, id: string)
    requires Valid(s)
    ensures var r := RemoveItemFromAvailable(s, id);
            var k := FindIndex(s.available, id);
            && StepKeeps(s, r)
            && RemoveItemFromAvailable(r, id) == r
            && (k == -1 ==> r == s)
            && (k != -1 ==> r.available == s.available[..k] + s.available[k + 1..]
                            && Bag(r) + multiset{s.available[k]} == Bag(s)
                            && id !in AllIds(r))
  {
    var r := RemoveItemFromAvailable(s, id);
    var k := FindIndex(s.available, id);
    RemoveIdIdempotent(s.available, id);
    if k == -1 {
      RemoveIdAbsent(s.available, id);
      assert StepKeeps(s, s);
    } else {
      assert UniqueIds(s.available) by {
        assert WellFormedRow(Items(s, Available));
      }
      RemovePoolPosition(s, id, k);
      LossKeepsPartition(s, r, Available, k);
    }
  }

  /** With unique pool ids, deleting by id deletes position k of the pool. */
  lemma RemovePoolPosition(s: Placement, id: string, k: nat)
    requires UniqueIds(s.available) && k < |s.available| && s.available[k].id == id
    ensures DroppedOut(s, RemoveItemFromAvailable(s, id), Available, k)
  {
    var r := RemoveItemFromAvailable(s, id);
    RemoveIdAt(s.available, id, k);
    assert forall b :: b != Available ==> Items(r, b) == Items(s, b);
  }

  // ---------------------------------------------------------------- boards

  /** Picking a board keeps the invariant and every item. */
  lemma SelectBoardKeepsValid(s: Placement, name: string)
    requires Valid(s)
    ensures var r := SelectBoard(s, name);
            Valid(r) && Bag(r) == Bag(s) && AllIds(r) == AllIds(s)
  {
    var r := SelectBoard(s, name);
    assert r.available == s.available && r.grid1 == s.grid1;
    assert r.grid2 == s.grid2 && r.grid3 == s.grid3;
  }

  /** Only the catalogue's three names switch the board. */
  lemma SelectBoardNames(s: Placement, name: string)
    ensures var r := SelectBoard(s, name);
            && (name == "Small" ==> r.board == BoardSizes[0])
            && (name == "Medium" ==> r.board == BoardSizes[1])
            && (name == "Large" ==> r.board == BoardSizes[2])
            && (name != "Small" && name != "Medium" && name != "Large" ==> r == s)
  {
    assert BoardSizes[0].name == "Small" && BoardSizes[1].name == "Medium" && BoardSizes[2].name == "Large";
  }

  /** A row holding one 300-unit item on the large board. */
  function OverfillWitness(): Placement
  {
    Placement([], [Item(ItemId(1), "Wide", 300, 3, None)], [], [], BoardSizes[2], 2)
  }

  /** Switching boards never re-checks the rows: a state within capacity on
      the large board is over capacity once the small board is picked. */
  lemma ShrinkingBoardCanOverfillRow()
    ensures var s := OverfillWitness();
            && Valid(s) && WithinCapacity(s)
            && !WithinCapacity(SelectBoard(s, "Small"))
  {
    OverfillWitnessValid();
    var s := OverfillWitness();
    assert UsedWidth(s.grid1) == 300 by {
      UsedWidthSingle(s.grid1[0]);
    }
    assert Items(s, Grid1) == s.grid1;
    SelectBoardNames(s, "Small");
    assert Items(SelectBoard(s, "Small"), Grid1) == s.grid1;
  }

  lemma OverfillWitnessValid()
    ensures Valid(OverfillWitness())
  {
    var s := OverfillWitness();
    var x := s.grid1[0];
    assert AllIds(s) == {x.id} by {
      assert IdSet(s.grid1) == {x.id};
    }
    assert forall b :: WellFormedRow(Items(s, b)) by {
      assert WellFormedRow(s.grid1);
      assert WellFormedRow([]);
    }
    assert PairwiseDisjoint(s) by {
      assert forall b :: b != Grid1 ==> Items(s, b) == [];
    }
    ItemIdIsForeign(1);
    OnlyIdOneFresh(2);
  }

  /** Counter values from `from` on never produce the id `item-1`. */
  lemma OnlyIdOneFresh(from: nat)
    requires from >= 2
    ensures forall n: nat {:trigger ItemId(n)} :: n >= from ==> ItemId(n) !in {ItemId(1)}
  {
    forall n: nat | n >= from
      ensures ItemId(n) != ItemId(1)
    {
      if ItemId(n) == ItemId(1) {
        ItemIdInjective(n, 1);
      }
    }
  }

  // ---------------------------------------------------------------- oversized items

  /** An item wider than the board's groove is refused by every row it is
      dropped on, whatever that row holds. */
  lemma OversizedItemIsRefused(s: Placement, source: Bucket, row: Bucket, activeId: string, overId: string)
    requires Valid(s) && IsRow(row) && source != row && activeId in IdSet(Items(s, source))
    requires overId in IdSet(Items(s, row)) || overId == BucketId(row)
    requires Items(s, source)[FindIndex(Items(s, source), activeId)].width > s.board.grooveWidth
    ensures DragEnd(s, activeId, Some(overId)).NoRoom?
  {
    assert UsedWidth(Items(s, row)) >= 0 by {
      assert WellFormedRow(Items(s, row));
      UsedWidthBounds(Items(s, row));
    }
    DropIntoOtherBucket(s, source, row, activeId, overId);
  }

  /** The "Big" template is 800 units wide, more than any board's groove. */
  lemma BigTemplateFitsNoBoard()
    ensures ItemTemplates[4].text == "Big"
    ensures forall b :: b in BoardSizes ==> ItemTemplates[4].width > b.grooveWidth
  {
  }
}

=== FILE: item_picker.dfy ===
/** The piece picker: fifty numbered tiles and a list of the selected numbers,
    where clicking a tile toggles its number in or out of the list. */
module ItemPicker {

  /** The numbers on the tiles: 1 through 50. */
  const ClickableIndices: seq<int> := seq(50, k => k + 1)

  /** `filter((index) => index !== v)`. */
  function Without(xs: seq<int>, v: int): (r: seq<int>)
    ensures forall x :: x in r <==> x in xs && x != v
    ensures |r| <= |xs|
    ensures v in xs ==> |r| < |xs|
    decreases |xs|
  {
    if |xs| == 0 then []
    else if xs[0] == v then Without(xs[1..], v)
    else [xs[0]] + Without(xs[1..], v)
  }

  /** `handleItemClick`: an unselected number is appended, a selected one is
      filtered out. */
  function Toggle(selected: seq<int>, index: int): (r: seq<int>)
    ensures index !in selected ==> r == selected + [index]
    ensures index in selected ==> index !in r && |r| < |selected|
    ensures forall x :: x != index ==> (x in r <==> x in selected)
  {
    if index !in selected then selected + [index] else Without(selected, index)
  }

  /** `isItemSelected`. */
  predicate IsSelected(selected: seq<int>, index: int)
    ensures IsSelected(selected, index) <==> exists k :: 0 <= k < |selected| && selected[k] == index
  {
    index in selected
  }

  ghost predicate NoDuplicates(xs: seq<int>)
  {
    forall i, j :: 0 <= i < j < |xs| ==> xs[i] != xs[j]
  }

  /** Filtering out a value that is absent changes nothing. */
  lemma {:induction false} WithoutAbsent(xs: seq<int>, v: int)
    requires v !in xs
    ensures Without(xs, v) == xs
    decreases |xs|
  {
    if |xs| > 0 {
      WithoutAbsent(xs[1..], v);
      assert xs == [xs[0]] + xs[1..];
    }
  }

  /** In a duplicate-free list, filtering out the value at position k deletes
      exactly that position and keeps the rest in order. */
  lemma {:induction false} WithoutAt(xs: seq<int>, k: nat)
    requires NoDuplicates(xs) && k < |xs|
    ensures Without(xs, xs[k]) == xs[..k] + xs[k + 1..]
    decreases |xs|
  {
    if k == 0 {
      assert xs[0] !in xs[1..] by {
        forall i | 0 <= i < |xs[1..]|
          ensures xs[1..][i] != xs[0]
        {
          assert xs[1..][i] == xs[i + 1];
        }
      }
      WithoutAbsent(xs[1..], xs[0]);
    } else {
      assert NoDuplicates(xs[1..]) by {
        forall i, j | 0 <= i < j < |xs[1..]|
          ensures xs[1..][i] != xs[1..][j]
        {
          assert xs[1..][i] == xs[i + 1] && xs[1..][j] == xs[j + 1];
        }
      }
      assert xs[1..][k - 1] == xs[k];
      WithoutAt(xs[1..], k - 1);
      assert xs[1..][..k - 1] + xs[1..][k..] == xs[1..k] + xs[k + 1..];
      assert [xs[0]] + xs[1..k] == xs[..k];
    }
  }

  /** Toggling a selected number removes just that number; the others keep their order. */
  lemma ToggleSelectedRemovesInPlace(selected: seq<int>, k: nat)
    requires NoDuplicates(selected) && k < |selected|
    ensures Toggle(selected, selected[k]) == selected[..k] + selected[k + 1..]
  {
    WithoutAt(selected, k);
  }

  /** Toggling never creates a duplicate. */
  lemma ToggleKeepsNoDuplicates(selected: seq<int>, index: int)
    requires NoDuplicates(selected)
    ensures NoDuplicates(Toggle(selected, index))
  {
    if index in selected {
      var k :| 0 <= k < |selected| && selected[k] == index;
      WithoutAt(selected, k);
      var r := selected[..k] + selected[k + 1..];
      forall i, j | 0 <= i < j < |r|
        ensures r[i] != r[j]
      {
        var i' := if i < k then i else i + 1;
        var j' := if j < k then j else j + 1;
        assert r[i] == selected[i'] && r[j] == selected[j'];
      }
    }
  }

  /** Toggling an unselected number twice restores the original list. */
  lemma ToggleTwiceRestores(selected: seq<int>, index: int)
    requires index !in selected
    ensures Toggle(Toggle(selected, index), index) == selected
  {
    WithoutAppendAbsent(selected, index);
  }

  lemma {:induction false} WithoutAppendAbsent(xs: seq<int>, v: int)
    requires v !in xs
    ensures Without(xs + [v], v) == xs
    decreases |xs|
  {
    if |xs| == 0 {
      assert [v][1..] == [];
    } else {
      assert (xs + [v])[1..] == xs[1..] + [v];
      WithoutAppendAbsent(xs[1..], v);
      assert xs == [xs[0]] + xs[1..];
    }
  }

  /** A toggle flips the selection state of the clicked number and of no other. */
  lemma ToggleFlipsOnlyClicked(selected: seq<int>, index: int, other: int)
    ensures IsSelected(Toggle(selected, index), other)
            <==> (if other == index then !IsSelected(selected, index) else IsSelected(selected, other))
  {
  }

  /** The tiles carry exactly the numbers 1 to 50. */
  lemma ClickableRange(x: int)
    ensures x in ClickableIndices <==> 1 <= x <= 50
  {
    if 1 <= x <= 50 {
      assert ClickableIndices[x - 1] == x;
    }
  }

  /** Clicking tiles keeps the selection inside 1..50. */
  lemma ToggleStaysClickable(selected: seq<int>, index: int)
    requires forall x :: x in selected ==> x in ClickableIndices
    requires index in ClickableIndices
    ensures forall x :: x in Toggle(selected, index) ==> 1 <= x <= 50
  {
    forall x | x in Toggle(selected, index)
      ensures 1 <= x <= 50
    {
      ClickableRange(x);
    }
  }
}

=== FILE: new_app.dfy ===
/** The placement engine of the editor: four ordered buckets of items (the
    available pool and three rows), the active board whose groove width caps
    each row, and a counter for fresh item ids. Every handler reads one
    snapshot and yields the next one. */
module NewApp {
  import opened Wrappers
  import opened Decimal
  import opened Sortable
  import opened GridItem
  import opened GridDroppable
  import opened Boards

  datatype Bucket = Available | Grid1 | Grid2 | Grid3

  /** The droppable id under which each bucket is registered. */
  function BucketId(b: Bucket): string
  {
    match b
    case Available => "available"
    case Grid1 => "grid-1"
    case Grid2 => "grid-2"
    case Grid3 => "grid-3"
  }

  predicate IsRow(b: Bucket)
  {
    b != Available
  }

  /** `startsWith("grid-")`. */
  predicate IsGridId(id: string)
  {
    |id| >= 5 && id[..5] == "grid-"
  }

  /** The order in which item lookup visits the buckets. */
  const SearchOrder: seq<Bucket> := [Available, Grid1, Grid2, Grid3]

  function Rank(b: Bucket): (r: nat)
    ensures r < |SearchOrder| && SearchOrder[r] == b
  {
    match b
    case Available => 0
    case Grid1 => 1
    case Grid2 => 2
    case Grid3 => 3
  }

  /** What a drop-target id names once item ids are ruled out: one of the four
      buckets, a "grid-" id that is no row, or something else entirely. */
  datatype Target = Known(bucket: Bucket) | UnlistedGrid | Foreign

  function ParseTarget(id: string): (r: Target)
    ensures forall b :: r == Known(b) <==> id == BucketId(b)
    ensures r == UnlistedGrid <==> IsGridId(id) && forall b :: id != BucketId(b)
    ensures r == Foreign <==> !IsGridId(id) && forall b :: id != BucketId(b)
  {
    if id == "available" then Known(Available)
    else if id == "grid-1" then Known(Grid1)
    else if id == "grid-2" then Known(Grid2)
    else if id == "grid-3" then Known(Grid3)
    else if IsGridId(id) then UnlistedGrid
    else Foreign
  }

  /** Row-like targets: the ones whose id starts with "grid-". */
  predicate IsGridTarget(t: Target)
  {
    match t
    case Known(b) => IsRow(b)
    case UnlistedGrid => true
    case Foreign => false
  }

  datatype Placement = Placement(
    available: seq<Item>,
    grid1: seq<Item>,
    grid2: seq<Item>,
    grid3: seq<Item>,
    board: Board,
    counter: nat)

  function Items(s: Placement, b: Bucket): seq<Item>
  {
    match b
    case Available => s.available
    case Grid1 => s.grid1
    case Grid2 => s.grid2
    case Grid3 => s.grid3
  }

  /** Replaces the contents of one bucket. */
  function WithItems(s: Placement, b: Bucket, xs: seq<Item>): (r: Placement)
    ensures forall b' :: Items(r, b') == if b' == b then xs else Items(s, b')
    ensures r.board == s.board && r.counter == s.counter
  {
    match b
    case Available => s.(available := xs)
    case Grid1 => s.(grid1 := xs)
    case Grid2 => s.(grid2 := xs)
    case Grid3 => s.(grid3 := xs)
  }

  /** `getGridItems`: the contents of a row, and nothing for any other id. */
  function GetGridItems(s: Placement, t: Target): (r: seq<Item>)
    ensures forall b :: t == Known(b) && IsRow(b) ==> r == Items(s, b)
    ensures !(t.Known? && IsRow(t.bucket)) ==> r == [] && UsedWidth(r) == 0
  {
    if t.Known? && IsRow(t.bucket) then Items(s, t.bucket) else []
  }

  /** `setGridItems`: replaces a row's contents; any other id is ignored. */
  function SetGridItems(s: Placement, t: Target, xs: seq<Item>): (r: Placement)
    ensures forall b :: Items(r, b) == if t == Known(b) && IsRow(b) then xs else Items(s, b)
    ensures r.board == s.board && r.counter == s.counter
  {
    if t.Known? && IsRow(t.bucket) then WithItems(s, t.bucket, xs) else s
  }

  /** Reading a row back after writing it gives what was written; writing
      back what was read changes nothing; other targets read as before. */
  lemma GridItemsRoundTrip(s: Placement, t: Target, xs: seq<Item>)
    ensures GetGridItems(SetGridItems(s, t, xs), t) == if t.Known? && IsRow(t.bucket) then xs else []
    ensures SetGridItems(s, t, GetGridItems(s, t)) == s
    ensures forall u :: u != t ==> GetGridItems(SetGridItems(s, t, xs), u) == GetGridItems(s, u)
  {
  }

  // ---------------------------------------------------------------- lookup

  /** The owning bucket of an item, together with the item. */
  datatype Location = Location(bucket: Bucket, item: Item)

  /** The scan of `findItemLocation`, from position `i` of the search order on. */
  function LocateFrom(s: Placement, id: string, i: nat): (r: Option<Location>)
    requires i <= |SearchOrder|
    ensures r.None? <==> forall b :: Rank(b) >= i ==> id !in IdSet(Items(s, b))
    ensures r.Some? ==> r.value.item in Items(s, r.value.bucket) && r.value.item.id == id
    ensures r.Some? ==> Rank(r.value.bucket) >= i
    ensures r.Some? ==> forall b :: i <= Rank(b) < Rank(r.value.bucket) ==> id !in IdSet(Items(s, b))
    decreases |SearchOrder| - i
  {
    if i == |SearchOrder| then None
    else
      var b := SearchOrder[i];
      assert Rank(b) == i;
      match FindById(Items(s, b), id)
      case Some(item) => Some(Location(b, item))
      case None => LocateFrom(s, id, i + 1)
  }

  /** `findItemLocation`: the first bucket, in search order, holding the id. */
  function Locate(s: Placement, id: string): (r: Option<Location>)
    ensures r.None? <==> forall b :: id !in IdSet(Items(s, b))
    ensures r.Some? ==> r.value.item in Items(s, r.value.bucket) && r.value.item.id == id
    ensures r.Some? ==> forall b :: Rank(b) < Rank(r.value.bucket) ==> id !in IdSet(Items(s, b))
  {
    LocateFrom(s, id, 0)
  }

  /** Where a drop lands: the owner of the item dropped on, or else the bucket
      the drop-target id itself names. */
  function DropTarget(s: Placement, overId: string): (r: Target)
    ensures forall b :: overId in IdSet(Items(s, b))
                        && (forall b' :: Rank(b') < Rank(b) ==> overId !in IdSet(Items(s, b')))
                        ==> r == Known(b)
    ensures (forall b :: overId !in IdSet(Items(s, b))) ==> r == ParseTarget(overId)
  {
    match Locate(s, overId)
    case Some(loc) => Known(loc.bucket)
    case None => ParseTarget(overId)
  }

  // ---------------------------------------------------------------- items

  /** A creation template: label, width and optional picture. */
  datatype Template = Template(text: string, width: int, backgroundImage: Option<string>)

  const ItemTemplates: seq<Template> := [
    Template("Tiny", 10, None),
    Template("Small", 20, Some("/src/assets/45123202_9121422.svg")),
    Template("Medium", 40, None),
    Template("Large", 60, None),
    Template("Big", 800, None),
    Template("Huge", 100, Some("/src/assets/45123202_9121422.svg"))
  ]

  /** Height in grid units from width: 1 up to 3, 2 up to 7, 3 beyond. */
  function CalculateHeight(width: int): (r: int)
    ensures 1 <= r <= 3
    ensures r == 1 <==> width <= 3
    ensures r == 3 <==> width > 7
  {
    if width <= 3 then 1 else if width <= 7 then 2 else 3
  }

  /** A wider item is never shorter. */
  lemma CalculateHeightMonotone(a: int, b: int)
    requires a <= b
    ensures CalculateHeight(a) <= CalculateHeight(b)
  {
  }

  /** `item-${n}`. */
  function ItemId(n: nat): (r: string)
    ensures |r| > 5 && r[..5] == "item-"
    ensures forall i :: 5 <= i < |r| ==> '0' <= r[i] <= '9'
    ensures DecimalValue(r[5..]) == n
    ensures r[5] == '0' ==> n == 0 && |r| == 6
  {
    var r := "item-" + NatToString(n);
    assert r[5..] == NatToString(n);
    r
  }

  const SeedItems: seq<Item> := [
    Item("item-1", "Small", 20, 1, None),
    Item("item-2", "Medium", 40, 2, None),
    Item("item-3", "Large", 60, 2, None),
    Item("item-4", "Tiny", 10, 1, None),
    Item("item-5", "Big", 80, 2, None)
  ]

  /** The state the editor opens with: the five seed items in the pool, empty
      rows, the default board and the id counter at 6. */
  function Initial(): (r: Placement)
    ensures r.available == SeedItems && r.board == DefaultBoard
    ensures forall b :: IsRow(b) ==> Items(r, b) == []
    ensures r.counter == |SeedItems| + 1
  {
    Placement(SeedItems, [], [], [], DefaultBoard, 6)
  }

  /** `createNewItem`: appends a new item built from the template to the pool,
      under the id `item-<counter>`, and advances the counter. */
  function CreateNewItem(s: Placement, t: Template): (r: Placement)
    ensures |r.available| == |s.available| + 1
    ensures r.available[..|s.available|] == s.available
    ensures var x := r.available[|s.available|];
            x.id == ItemId(s.counter) && x.text == t.text && x.width == t.width
            && x.backgroundImage == t.backgroundImage && x.height == CalculateHeight(t.width)
    ensures r.counter == s.counter + 1
    ensures r.grid1 == s.grid1 && r.grid2 == s.grid2 && r.grid3 == s.grid3 && r.board == s.board
  {
    var item := Item(ItemId(s.counter), t.text, t.width, CalculateHeight(t.width), t.backgroundImage);
    var r := s.(available := s.available + [item], counter := s.counter + 1);
    assert r.available[..|s.available|] == s.available;
    r
  }

  /** `removeItemFromAvailable`: filters the id out of the pool only. */
  function RemoveItemFromAvailable(s: Placement, id: string): (r: Placement)
    ensures IdSet(r.available) == IdSet(s.available) - {id}
    ensures forall x :: x in r.available <==> x in s.available && x.id != id
    ensures r.grid1 == s.grid1 && r.grid2 == s.grid2 && r.grid3 == s.grid3
    ensures r.board == s.board && r.counter == s.counter
  {
    s.(available := RemoveId(s.available, id))
  }

  /** The board picker's `onChange`: switch to the named board when the
      catalogue has it; bucket contents are never touched. */
  function SelectBoard(s: Placement, name: string): (r: Placement)
    ensures forall b :: Items(r, b) == Items(s, b)
    ensures r.counter == s.counter
    ensures FindBoard(name).None? ==> r == s
    ensures FindBoard(name).Some? ==> r.board.name == name && r.board in BoardSizes
  {
    match FindBoard(name)
    case Some(board) => s.(board := board)
    case None => s
  }

  // ---------------------------------------------------------------- drops

  /** What a drop produces: the next state, or a refusal naming the width the
      item needs and the width the row has left (state unchanged). */
  datatype DropResult = Applied(next: Placement) | NoRoom(needed: int, remaining: int)

  /** Reordering inside one row: moves the dragged item to the index of the
      item it was dropped on, when both are in the row and differ. */
  function Reorder(s: Placement, row: Bucket, activeId: string, overId: string): (r: Placement)
    requires IsRow(row)
    ensures multiset(Items(r, row)) == multiset(Items(s, row))
    ensures UsedWidth(Items(r, row)) == UsedWidth(Items(s, row))
    ensures forall b :: b != row ==> Items(r, b) == Items(s, b)
    ensures r.board == s.board && r.counter == s.counter
  {
    var items := GetGridItems(s, Known(row));
    var oldIndex := FindIndex(items, activeId);
    var newIndex := FindIndex(items, overId);
    if oldIndex != -1 && newIndex != -1 && oldIndex != newIndex then
      UsedWidthArrayMove(items, oldIndex, newIndex);
      SetGridItems(s, Known(row), ArrayMove(items, oldIndex, newIndex))
    else s
  }

  /** `handleDragEnd`. */
  function DragEnd(s: Placement, activeId: string, overId: Option<string>): (r: DropResult)
    ensures overId.None? ==> r == Applied(s)
    ensures (forall b :: activeId !in IdSet(Items(s, b))) ==> r == Applied(s)
    ensures r.NoRoom? ==> r.needed > r.remaining
  {
    if overId.None? then Applied(s)
    else
      match Locate(s, activeId)
      case None => Applied(s)
      case Some(Location(source, item)) =>
        var target := DropTarget(s, overId.value);
        if target == Known(source) && IsRow(source) then
          Applied(Reorder(s, source, activeId, overId.value))
        else if target == Known(source) then
          Applied(s)
        else if IsGridTarget(target) && !Fits(s.board.grooveWidth, GetGridItems(s, target), item.width) then
          NoRoom(item.width, RemainingWidth(s.board.grooveWidth, GetGridItems(s, target)))
        else
          Applied(MoveItem(s, source, item, target))
  }

  /** The last step of `handleDragEnd`, once capacity allows: filter the item out
      of its source, then append it to the target if the target is the pool or
      one of the three rows. Any other target receives nothing. */
  function MoveItem(s: Placement, source: Bucket, item: Item, target: Target): (r: Placement)
    requires target != Known(source)
    ensures Items(r, source) == RemoveId(Items(s, source), item.id)
    ensures forall b :: b != source ==> Items(r, b) == if target == Known(b) then Items(s, b) + [item] else Items(s, b)
    ensures r.board == s.board && r.counter == s.counter
  {
    var removed := WithItems(s, source, RemoveId(Items(s, source), item.id));
    if target == Known(Available) then
      WithItems(removed, Available, s.available + [item])
    else if IsGridTarget(target) then
      SetGridItems(removed, target, GetGridItems(s, target) + [item])
    else
      removed
  }
}

=== FILE: placement_invariants.dfy ===
/** The invariant the placement engine keeps, and the facts every handler proof
    leans on: item ids are unique across all four buckets (each item lives in
    exactly one bucket), widths are positive, item ids never read as bucket
    ids, and ids the counter will hand out are not taken yet. */
module PlacementInvariants {
  import opened Wrappers
  import opened Decimal
  import opened GridItem
  import opened GridDroppable
  import opened Boards
  import opened NewApp

  function AllIds(s: Placement): set<string>
  {
    IdSet(s.available) + IdSet(s.grid1) + IdSet(s.grid2) + IdSet(s.grid3)
  }

  /** Every item in the engine, each counted as often as it occurs. */
  function Bag(s: Placement): multiset<Item>
  {
    multiset(s.available) + multiset(s.grid1) + multiset(s.grid2) + multiset(s.grid3)
  }

  ghost predicate WellFormedRow(xs: seq<Item>)
  {
    UniqueIds(xs) && forall x :: x in xs ==> x.width > 0
  }

  ghost predicate PairwiseDisjoint(s: Placement)
  {
    forall b, b' :: b != b' ==> IdSet(Items(s, b)) !! IdSet(Items(s, b'))
  }

  ghost predicate Valid(s: Placement)
  {
    && (forall b :: WellFormedRow(Items(s, b)))
    && PairwiseDisjoint(s)
    && (forall id :: id in AllIds(s) ==> ParseTarget(id) == Foreign)
    && (forall n: nat {:trigger ItemId(n)} :: n >= s.counter ==> ItemId(n) !in AllIds(s))
    && s.board in BoardSizes
  }

  /** No row holds more than the active board's groove width. */
  ghost predicate WithinCapacity(s: Placement)
  {
    forall b :: IsRow(b) ==> UsedWidth(Items(s, b)) <= s.board.grooveWidth
  }

  lemma AllIdsCover(s: Placement)
    ensures forall b :: IdSet(Items(s, b)) <= AllIds(s)
    ensures forall id :: id in AllIds(s) ==> exists b :: id in IdSet(Items(s, b))
  {
    forall id | id in AllIds(s)
      ensures exists b :: id in IdSet(Items(s, b))
    {
      if id in IdSet(s.available) {
        assert id in IdSet(Items(s, Available));
      } else if id in IdSet(s.grid1) {
        assert id in IdSet(Items(s, Grid1));
      } else if id in IdSet(s.grid2) {
        assert id in IdSet(Items(s, Grid2));
      } else {
        assert id in IdSet(Items(s, Grid3));
      }
    }
  }

  lemma BagWithItems(s: Placement, b: Bucket, xs: seq<Item>)
    ensures Bag(WithItems(s, b, xs)) + multiset(Items(s, b)) == Bag(s) + multiset(xs)
  {
  }

  /** Ids built from different counter values differ. */
  lemma ItemIdInjective(a: nat, b: nat)
    requires ItemId(a) == ItemId(b)
    ensures a == b
  {
    assert ItemId(a)[5..] == NatToString(a);
    assert ItemId(b)[5..] == NatToString(b);
    NatToStringInjective(a, b);
  }

  /** A generated id is never mistaken for a bucket or row id. */
  lemma ItemIdIsForeign(n: nat)
    ensures ParseTarget(ItemId(n)) == Foreign
  {
    assert ItemId(n)[0] == 'i';
    LeadingIIsForeign(ItemId(n));
  }

  /** Bucket ids start with 'a' or 'g', so an id starting with 'i' names no bucket. */
  lemma LeadingIIsForeign(id: string)
    requires |id| > 0 && id[0] == 'i'
    ensures ParseTarget(id) == Foreign
  {
    assert forall b :: BucketId(b)[0] != 'i';
  }

  /** Sufficient conditions for a successor state to keep the invariant: its
      rows are well formed, every bucket only lost ids except `dst`, which may
      also have gained `id`, and `id` is in no other bucket. `id` is either
      already known, or a fresh counter id below the new counter. */
  lemma ValidAfterTransfer(s: Placement, t: Placement, id: string, dst: Bucket)
    requires Valid(s)
    requires forall b :: WellFormedRow(Items(t, b))
    requires forall b :: IdSet(Items(t, b)) <= IdSet(Items(s, b)) + (if b == dst then {id} else {})
    requires forall b :: b != dst ==> id !in IdSet(Items(t, b))
    requires id in AllIds(s) || exists n: nat :: n == s.counter < t.counter && id == ItemId(n)
    requires t.counter >= s.counter && t.board in BoardSizes
    ensures Valid(t)
  {
    DisjointAfterTransfer(s, t, id, dst);
    IdsAfterTransfer(s, t, id, dst);
    if id !in AllIds(s) {
      var n: nat :| n == s.counter < t.counter && id == ItemId(n);
      FreshAfterTransfer(s, t, n);
    }
  }

  lemma DisjointAfterTransfer(s: Placement, t: Placement, id: string, dst: Bucket)
    requires PairwiseDisjoint(s)
    requires forall b :: IdSet(Items(t, b)) <= IdSet(Items(s, b)) + (if b == dst then {id} else {})
    requires forall b :: b != dst ==> id !in IdSet(Items(t, b))
    ensures PairwiseDisjoint(t)
  {
    forall b, b' | b != b'
      ensures IdSet(Items(t, b)) !! IdSet(Items(t, b'))
    {
      assert IdSet(Items(s, b)) !! IdSet(Items(s, b'));
    }
  }

  lemma IdsAfterTransfer(s: Placement, t: Placement, id: string, dst: Bucket)
    requires forall b :: IdSet(Items(t, b)) <= IdSet(Items(s, b)) + (if b == dst then {id} else {})
    ensures AllIds(t) <= AllIds(s) + {id}
  {
    AllIdsCover(s);
    AllIdsCover(t);
  }

  lemma FreshAfterTransfer(s: Placement, t: Placement, n: nat)
    requires forall m: nat {:trigger ItemId(m)} :: m >= s.counter ==> ItemId(m) !in AllIds(s)
    requires forall x :: x in AllIds(s) ==> ParseTarget(x) == Foreign
    requires AllIds(t) <= AllIds(s) + {ItemId(n)}
    requires n == s.counter < t.counter
    ensures forall m: nat {:trigger ItemId(m)} :: m >= t.counter ==> ItemId(m) !in AllIds(t)
    ensures forall x :: x in AllIds(t) ==> ParseTarget(x) == Foreign
  {
    ItemIdIsForeign(n);
    forall m: nat | m >= t.counter
      ensures ItemId(m) !in AllIds(t)
    {
      if ItemId(m) == ItemId(n) {
        ItemIdInjective(m, n);
      }
    }
  }
}

=== FILE: placement_proofs.dfy ===
/** What the handlers promise, stated against the invariant of
    PlacementInvariants: lookups find the one owner, drops reorder, move,
    refuse or lose exactly as the drag-end handler decides, and creation,
    deletion and board selection keep the partition intact. */
module PlacementProofs {
  import opened Wrappers
  import opened Decimal
  import opened Sortable
  import opened GridItem
  import opened GridDroppable
  import opened Boards
  import opened NewApp
  import opened PlacementInvariants

  // ---------------------------------------------------------------- start

  /** The opening state satisfies the invariant and every row is within capacity. */
  lemma InitialIsValid()
    ensures Valid(Initial()) && WithinCapacity(Initial())
    ensures AllIds(Initial()) == {"item-1", "item-2", "item-3", "item-4", "item-5"}
  {
    InitialIds();
    InitialRows();
    InitialNamesApart();
    InitialFresh();
    assert UsedWidth([]) == 0;
  }

  lemma InitialIds()
    ensures AllIds(Initial()) == {"item-1", "item-2", "item-3", "item-4", "item-5"}
  {
    SeedIds();
    assert IdSet([]) == {};
  }

  lemma InitialRows()
    ensures forall b :: WellFormedRow(Items(Initial(), b))
    ensures PairwiseDisjoint(Initial())
  {
    SeedIds();
    assert IdSet([]) == {};
  }

  lemma InitialNamesApart()
    ensures forall id :: id in AllIds(Initial()) ==> ParseTarget(id) == Foreign
  {
    InitialIds();
    forall id | id in AllIds(Initial())
      ensures ParseTarget(id) == Foreign
    {
      assert id[..5] == "item-";
      LeadingIIsForeign(id);
    }
  }

  lemma InitialFresh()
    ensures forall n: nat {:trigger ItemId(n)} :: n >= Initial().counter ==> ItemId(n) !in AllIds(Initial())
  {
    InitialIds();
    SeedIdsFresh();
  }

  lemma SeedIds()
    ensures IdSet(SeedItems) == {"item-1", "item-2", "item-3", "item-4", "item-5"}
    ensures WellFormedRow(SeedItems)
  {
    SeedIdSet();
    SeedRowWellFormed();
  }

  lemma SeedRowWellFormed()
    ensures WellFormedRow(SeedItems)
  {
  }

  lemma SeedIdSet()
    ensures IdSet(SeedItems) == {"item-1", "item-2", "item-3", "item-4", "item-5"}
  {
    forall id | id in {"item-1", "item-2", "item-3", "item-4", "item-5"}
      ensures id in IdSet(SeedItems)
    {
      if id == "item-1" { assert SeedItems[0].id == id; }
      else if id == "item-2" { assert SeedItems[1].id == id; }
      else if id == "item-3" { assert SeedItems[2].id == id; }
      else if id == "item-4" { assert SeedItems[3].id == id; }
      else { assert SeedItems[4].id == id; }
    }
  }

  /** The counter starts past the seed ids, so every id it will produce is new. */
  lemma SeedIdsFresh()
    ensures forall n: nat {:trigger ItemId(n)} :: n >= 6 ==> ItemId(n) !in {"item-1", "item-2", "item-3", "item-4", "item-5"}
  {
    assert NatToString(1) == "1" && NatToString(2) == "2" && NatToString(3) == "3";
    assert NatToString(4) == "4" && NatToString(5) == "5";
    forall n: nat, m: nat | n >= 6 && 1 <= m <= 5
      ensures ItemId(n) != ItemId(m)
    {
      if ItemId(n) == ItemId(m) {
        ItemIdInjective(n, m);
      }
    }
    assert ItemId(1) == "item-1" && ItemId(2) == "item-2" && ItemId(3) == "item-3";
    assert ItemId(4) == "item-4" && ItemId(5) == "item-5";
  }

  // ---------------------------------------------------------------- lookup

  /** Under the invariant, looking up an id finds its one owning bucket and the
      item stored there under that id. */
  lemma LocateOwner(s: Placement, id: string, b: Bucket)
    requires Valid(s) && id in IdSet(Items(s, b))
    ensures Locate(s, id) == Some(Location(b, Items(s, b)[FindIndex(Items(s, b), id)]))
  {
    var loc := Locate(s, id).value;
    assert id in IdSet(Items(s, loc.bucket));
    assert loc.bucket == b;
    UniqueIdsSameItem(Items(s, b), loc.item, FindIndex(Items(s, b), id));
  }

  /** Under the invariant, a drop lands in bucket b exactly when the drop-target
      id is an item of b or is b's own id; an id that is neither an item nor a
      bucket resolves to the unlisted-grid or foreign case by its spelling. */
  lemma DropTargetResolves(s: Placement, overId: string)
    requires Valid(s)
    ensures forall b :: DropTarget(s, overId) == Known(b) <==> overId in IdSet(Items(s, b)) || overId == BucketId(b)
    ensures (forall b :: overId !in IdSet(Items(s, b)) && overId != BucketId(b)) ==>
              DropTarget(s, overId) == (if IsGridId(overId) then UnlistedGrid else Foreign)
  {
    AllIdsCover(s);
    if b0 :| overId in IdSet(Items(s, b0)) {
      LocateOwner(s, overId, b0);
      assert ParseTarget(overId) == Foreign;
      forall b
        ensures overId in IdSet(Items(s, b)) <==> b == b0
      {
        if b != b0 {
          assert IdSet(Items(s, b)) !! IdSet(Items(s, b0));
        }
      }
    }
  }

  // ---------------------------------------------------------------- drops

  /** How the drag-end handler decides once the dragged item is found in
      `source` and the drop target is resolved: same row means reorder, same
      pool means nothing, a grid-like target without room means refusal, and
      anything else means the move step. */
  lemma DragEndDecision(s: Placement, activeId: string, overId: string, source: Bucket, item: Item)
    requires Locate(s, activeId) == Some(Location(source, item))
    ensures var t := DropTarget(s, overId);
            var r := DragEnd(s, activeId, Some(overId));
            var left := RemainingWidth(s.board.grooveWidth, GetGridItems(s, t));
            && (t == Known(source) && IsRow(source) ==> r == Applied(Reorder(s, source, activeId, overId)))
            && (t == Known(source) && !IsRow(source) ==> r == Applied(s))
            && (t != Known(source) ==> (r.NoRoom? <==> IsGridTarget(t) && item.width > left))
            && (t != Known(source) && r.NoRoom? ==> r == NoRoom(item.width, left))
            && (t != Known(source) && r.Applied? ==> r.next == MoveItem(s, source, item, t))
  {
    if DropTarget(s, overId) == Known(source) {
      DecisionSameBucket(s, activeId, overId, source, item);
    } else {
      DecisionOtherBucket(s, activeId, overId, source, item);
    }
  }

  lemma DecisionSameBucket(s: Placement, activeId: string, overId: string, source: Bucket, item: Item)
    requires Locate(s, activeId) == Some(Location(source, item))
    requires DropTarget(s, overId) == Known(source)
    ensures DragEnd(s, activeId, Some(overId))
            == Applied(if IsRow(source) then Reorder(s, source, activeId, overId) else s)
  {
  }

  lemma DecisionOtherBucket(s: Placement, activeId: string, overId: string, source: Bucket, item: Item)
    requires Locate(s, activeId) == Some(Location(source, item))
    requires DropTarget(s, overId) != Known(source)
    ensures var t := DropTarget(s, overId);
            var left := RemainingWidth(s.board.grooveWidth, GetGridItems(s, t));
            DragEnd(s, activeId, Some(overId))
            == if IsGridTarget(t) && item.width > left then NoRoom(item.width, left)
               else Applied(MoveItem(s, source, item, t))
  {
  }

  /** A reorder leaves the row alone unless both ids are in it at different
      positions, and then performs `arrayMove` between those positions. */
  lemma ReorderIndices(s: Placement, row: Bucket, activeId: string, overId: string)
    requires IsRow(row)
    ensures var r := Reorder(s, row, activeId, overId);
            var xs := Items(s, row);
            var i, j := FindIndex(xs, activeId), FindIndex(xs, overId);
            && (i == -1 || j == -1 || j == i ==> r == s)
            && (i != -1 && j != -1 && j != i ==> Items(r, row) == ArrayMove(xs, i, j))
  {
    assert GetGridItems(s, Known(row)) == Items(s, row);
  }

  /** Dropping a pool item back onto the pool, or onto another pool item,
      changes nothing. */
  lemma DropOnOwnPoolIsNoOp(s: Placement, activeId: string, overId: string)
    requires Valid(s) && activeId in IdSet(s.available)
    requires overId in IdSet(s.available) || overId == BucketId(Available)
    ensures DragEnd(s, activeId, Some(overId)) == Applied(s)
  {
    var k := FindIndex(s.available, activeId);
    assert Locate(s, activeId) == Some(Location(Available, s.available[k])) by {
      LocateOwner(s, activeId, Available);
    }
    assert DropTarget(s, overId) == Known(Available) by {
      DropTargetResolves(s, overId);
    }
    DragEndDecision(s, activeId, overId, Available, s.available[k]);
  }

  /** Dropping a row item onto its own row, or onto an item of it, is a reorder:
      nothing happens unless the target is a different item of the row, in which
      case the row becomes `arrayMove(row, oldIndex, newIndex)`; either way the
      row keeps its items and its width, and no other bucket changes. */
  lemma DropWithinRowReorders(s: Placement, row: Bucket, activeId: string, overId: string)
    requires Valid(s) && IsRow(row) && activeId in IdSet(Items(s, row))
    requires overId in IdSet(Items(s, row)) || overId == BucketId(row)
    ensures var r := DragEnd(s, activeId, Some(overId));
            var xs := Items(s, row);
            var i, j := FindIndex(xs, activeId), FindIndex(xs, overId);
            && r.Applied?
            && (j == -1 || j == i ==> r.next == s)
            && (j != -1 && j != i ==> Items(r.next, row) == ArrayMove(xs, i, j))
            && multiset(Items(r.next, row)) == multiset(xs)
            && UsedWidth(Items(r.next, row)) == UsedWidth(xs)
            && (forall b :: b != row ==> Items(r.next, b) == Items(s, b))
            && r.next.board == s.board && r.next.counter == s.counter
  {
    var xs := Items(s, row);
    var k := FindIndex(xs, activeId);
    assert Locate(s, activeId) == Some(Location(row, xs[k])) by {
      LocateOwner(s, activeId, row);
    }
    assert DropTarget(s, overId) == Known(row) by {
      DropTargetResolves(s, overId);
    }
    DragEndDecision(s, activeId, overId, row, xs[k]);
    ReorderIndices(s, row, activeId, overId);
  }

  /** Dropping onto another bucket, or onto an item in it: a row refuses the item
      exactly when its width exceeds the row's displayed remaining width, and
      the refusal reports both numbers. Otherwise the item leaves its source
      (the other items keeping their order), is appended to the target, nothing
      else changes, and an accepted row stays within the board's capacity. */
  lemma DropIntoOtherBucket(s: Placement, source: Bucket, target: Bucket, activeId: string, overId: string)
    requires Valid(s) && source != target && activeId in IdSet(Items(s, source))
    requires overId in IdSet(Items(s, target)) || overId == BucketId(target)
    ensures var r := DragEnd(s, activeId, Some(overId));
            var xs := Items(s, source);
            var k := FindIndex(xs, activeId);
            var left := RemainingWidth(s.board.grooveWidth, Items(s, target));
            && (r.NoRoom? <==> IsRow(target) && xs[k].width > left)
            && (r.NoRoom? ==> r.needed == xs[k].width && r.remaining == left)
            && (r.Applied? ==> MovedAcross(s, r.next, source, target, k))
  {
    var xs := Items(s, source);
    var k := FindIndex(xs, activeId);
    assert Locate(s, activeId) == Some(Location(source, xs[k])) by {
      LocateOwner(s, activeId, source);
    }
    assert DropTarget(s, overId) == Known(target) by {
      DropTargetResolves(s, overId);
    }
    assert UniqueIds(xs);
    MoveAcross(s, source, target, activeId, overId);
  }

  lemma MoveAcross(s: Placement, source: Bucket, target: Bucket, activeId: string, overId: string)
    requires source != target && activeId in IdSet(Items(s, source)) && UniqueIds(Items(s, source))
    requires Locate(s, activeId) == Some(Location(source, Items(s, source)[FindIndex(Items(s, source), activeId)]))
    requires DropTarget(s, overId) == Known(target)
    ensures var r := DragEnd(s, activeId, Some(overId));
            var xs := Items(s, source);
            var k := FindIndex(xs, activeId);
            var left := RemainingWidth(s.board.grooveWidth, Items(s, target));
            && (r.NoRoom? <==> IsRow(target) && xs[k].width > left)
            && (r.NoRoom? ==> r.needed == xs[k].width && r.remaining == left)
            && (r.Applied? ==> MovedAcross(s, r.next, source, target, k))
  {
    var xs := Items(s, source);
    var k := FindIndex(xs, activeId);
    DecisionOtherBucket(s, activeId, overId, source, xs[k]);
    assert IsRow(target) ==> GetGridItems(s, Known(target)) == Items(s, target);
    if !(IsRow(target) && xs[k].width > RemainingWidth(s.board.grooveWidth, Items(s, target))) {
      MoveItemAcross(s, source, target, k);
    }
  }

  /** The move step between two distinct known buckets, once capacity allows. */
  lemma MoveItemAcross(s: Placement, source: Bucket, target: Bucket, k: nat)
    requires source != target && k < |Items(s, source)| && UniqueIds(Items(s, source))
    requires IsRow(target) ==> Items(s, source)[k].width <= RemainingWidth(s.board.grooveWidth, Items(s, target))
    ensures MovedAcross(s, MoveItem(s, source, Items(s, source)[k], Known(target)), source, target, k)
  {
    var xs := Items(s, source);
    var m := MoveItem(s, source, xs[k], Known(target));
    assert Items(m, source) == xs[..k] + xs[k + 1..] by {
      RemoveIdAt(xs, xs[k].id, k);
    }
    assert IsRow(target) ==> UsedWidth(Items(m, target)) <= s.board.grooveWidth by {
      UsedWidthAppend(Items(s, target), xs[k]);
    }
    assert Items(m, target) == Items(s, target) + [xs[k]];
    assert forall b :: b != source && b != target ==> Items(m, b) == Items(s, b);
  }

  /** `next` is `s` with the item at position k of `source` moved to the end of
      `target`, rows being kept within capacity. */
  ghost predicate MovedAcross(s: Placement, next: Placement, source: Bucket, target: Bucket, k: int)
    requires 0 <= k < |Items(s, source)|
  {
    var xs := Items(s, source);
    && Items(next, source) == xs[..k] + xs[k + 1..]
    && Items(next, target) == Items(s, target) + [xs[k]]
    && (forall b :: b != source && b != target ==> Items(next, b) == Items(s, b))
    && (IsRow(target) ==> UsedWidth(Items(next, target)) <= s.board.grooveWidth)
    && next.board == s.board && next.counter == s.counter
  }

  /** Dropping onto an id that is neither an item nor one of the four buckets:
      a "grid-" id is treated as an empty row (the item is refused only when it
      is wider than the board); otherwise, or when it fits, the item is
      filtered out of its source and added nowhere: it is lost. */
  lemma DropOnUnknownTargetLosesItem(s: Placement, source: Bucket, activeId: string, overId: string)
    requires Valid(s) && activeId in IdSet(Items(s, source))
    requires forall b :: overId !in IdSet(Items(s, b)) && overId != BucketId(b)
    ensures var r := DragEnd(s, activeId, Some(overId));
            var xs := Items(s, source);
            var k := FindIndex(xs, activeId);
            && (r.NoRoom? <==> IsGridId(overId) && xs[k].width > s.board.grooveWidth)
            && (r.NoRoom? ==> r.needed == xs[k].width && r.remaining == s.board.grooveWidth)
            && (r.Applied? ==> DroppedOut(s, r.next, source, k))
  {
    var xs := Items(s, source);
    var k := FindIndex(xs, activeId);
    assert Locate(s, activeId) == Some(Location(source, xs[k])) by {
      LocateOwner(s, activeId, source);
    }
    assert DropTarget(s, overId) == (if IsGridId(overId) then UnlistedGrid else Foreign) by {
      DropTargetResolves(s, overId);
    }
    assert UniqueIds(xs);
    MoveNowhere(s, source, activeId, overId);
  }

  lemma MoveNowhere(s: Placement, source: Bucket, activeId: string, overId: string)
    requires activeId in IdSet(Items(s, source)) && UniqueIds(Items(s, source))
    requires Locate(s, activeId) == Some(Location(source, Items(s, source)[FindIndex(Items(s, source), activeId)]))
    requires DropTarget(s, overId) == (if IsGridId(overId) then UnlistedGrid else Foreign)
    ensures var r := DragEnd(s, activeId, Some(overId));
            var xs := Items(s, source);
            var k := FindIndex(xs, activeId);
            && (r.NoRoom? <==> IsGridId(overId) && xs[k].width > s.board.grooveWidth)
            && (r.NoRoom? ==> r.needed == xs[k].width && r.remaining == s.board.grooveWidth)
            && (r.Applied? ==> DroppedOut(s, r.next, source, k))
  {
    MoveNowhereRefusal(s, source, activeId, overId);
    MoveNowhereApplied(s, source, activeId, overId);
  }

  lemma MoveNowhereRefusal(s: Placement, source: Bucket, activeId: string, overId: string)
    requires activeId in IdSet(Items(s, source))
    requires Locate(s, activeId) == Some(Location(source, Items(s, source)[FindIndex(Items(s, source), activeId)]))
    requires DropTarget(s, overId) == (if IsGridId(overId) then UnlistedGrid else Foreign)
    ensures var r := DragEnd(s, activeId, Some(overId));
            var item := Items(s, source)[FindIndex(Items(s, source), activeId)];
            && (r.NoRoom? <==> IsGridId(overId) && item.width > s.board.grooveWidth)
            && (r.NoRoom? ==> r.needed == item.width && r.remaining == s.board.grooveWidth)
  {
    var xs := Items(s, source);
    var t := DropTarget(s, overId);
    assert RemainingWidth(s.board.grooveWidth, GetGridItems(s, t)) == s.board.grooveWidth by {
      assert GetGridItems(s, t) == [];
      assert UsedWidth([]) == 0;
    }
    DecisionOtherBucket(s, activeId, overId, source, xs[FindIndex(xs, activeId)]);
  }

  lemma MoveNowhereApplied(s: Placement, source: Bucket, activeId: string, overId: string)
    requires activeId in IdSet(Items(s, source)) && UniqueIds(Items(s, source))
    requires Locate(s, activeId) == Some(Location(source, Items(s, source)[FindIndex(Items(s, source), activeId)]))
    requires DropTarget(s, overId) == (if IsGridId(overId) then UnlistedGrid else Foreign)
    ensures var r := DragEnd(s, activeId, Some(overId));
            var xs := Items(s, source);
            var k := FindIndex(xs, activeId);
            r.Applied? ==> DroppedOut(s, r.next, source, k)
  {
    var xs := Items(s, source);
    var k := FindIndex(xs, activeId);
    var t := DropTarget(s, overId);
    DecisionOtherBucket(s, activeId, overId, source, xs[k]);
    var m := MoveItem(s, source, xs[k], t);
    assert Items(m, source) == xs[..k] + xs[k + 1..] by {
      RemoveIdAt(xs, activeId, k);
    }
    assert forall b :: b != source ==> Items(m, b) == Items(s, b);
    assert DroppedOut(s, m, source, k);
  }

  /** `next` is `s` with the item at position k of `source` deleted and added
      nowhere. */
  ghost predicate DroppedOut(s: Placement, next: Placement, source: Bucket, k: int)
    requires 0 <= k < |Items(s, source)|
  {
    var xs := Items(s, source);
    && Items(next, source) == xs[..k] + xs[k + 1..]
    && (forall b :: b != source ==> Items(next, b) == Items(s, b))
    && next.board == s.board && next.counter == s.counter
  }

  // ---------------------------------------------------------------- invariants

  /** How often an item occurs in the engine, bucket by bucket. */
  lemma BagCount(s: Placement, x: Item)
    ensures Bag(s)[x] == multiset(Items(s, Available))[x] + multiset(Items(s, Grid1))[x]
                         + multiset(Items(s, Grid2))[x] + multiset(Items(s, Grid3))[x]
  {
  }

  /** Bag bookkeeping when `m` leaves `source` for `target`. */
  lemma BagTransfer(s: Placement, next: Placement, source: Bucket, target: Bucket, m: multiset<Item>)
    requires source != target
    requires multiset(Items(next, source)) + m == multiset(Items(s, source))
    requires multiset(Items(next, target)) == multiset(Items(s, target)) + m
    requires forall b :: b != source && b != target ==> Items(next, b) == Items(s, b)
    ensures Bag(next) == Bag(s)
  {
    var w := WithItems(s, source, Items(next, source));
    BagDrop(s, w, source, m);
    BagDrop(next, w, target, m);
  }

  /** Bag bookkeeping when `m` leaves `source` for nowhere. */
  lemma BagDrop(s: Placement, next: Placement, source: Bucket, m: multiset<Item>)
    requires multiset(Items(next, source)) + m == multiset(Items(s, source))
    requires forall b :: b != source ==> Items(next, b) == Items(s, b)
    ensures Bag(next) + m == Bag(s)
  {
    var u := WithItems(s, source, Items(next, source));
    BagWithItems(s, source, Items(next, source));
    assert Items(next, Available) == Items(u, Available) && Items(next, Grid1) == Items(u, Grid1);
    assert Items(next, Grid2) == Items(u, Grid2) && Items(next, Grid3) == Items(u, Grid3);
    var a, c := Bag(next), multiset(Items(next, source));
    assert a + (c + m) == Bag(s) + c;
    forall x
      ensures (a + m)[x] == Bag(s)[x]
    {
      assert (a + (c + m))[x] == (Bag(s) + c)[x];
    }
  }

  /** Moving one item between two buckets keeps every item. */
  lemma BagAfterMove(s: Placement, next: Placement, source: Bucket, target: Bucket, k: nat)
    requires source != target && k < |Items(s, source)|
    requires Items(next, source) == Items(s, source)[..k] + Items(s, source)[k + 1..]
    requires Items(next, target) == Items(s, target) + [Items(s, source)[k]]
    requires forall b :: b != source && b != target ==> Items(next, b) == Items(s, b)
    ensures Bag(next) == Bag(s)
  {
    var xs := Items(s, source);
    MultisetRemoveAt(xs, k);
    BagTransfer(s, next, source, target, multiset{xs[k]});
    assert Bag(next) == Bag(s);
  }

  /** Deleting one item from a bucket loses exactly that item. */
  lemma BagAfterLoss(s: Placement, next: Placement, source: Bucket, k: nat)
    requires k < |Items(s, source)|
    requires Items(next, source) == Items(s, source)[..k] + Items(s, source)[k + 1..]
    requires forall b :: b != source ==> Items(next, b) == Items(s, b)
    ensures Bag(next) + multiset{Items(s, source)[k]} == Bag(s)
  {
    var xs := Items(s, source);
    MultisetRemoveAt(xs, k);
    BagDrop(s, next, source, multiset{xs[k]});
  }

  /** Deleting position k of a well-formed row leaves a well-formed row without
      that item's id. */
  lemma WellFormedRemoveAt(xs: seq<Item>, k: nat)
    requires WellFormedRow(xs) && k < |xs|
    ensures WellFormedRow(xs[..k] + xs[k + 1..])
    ensures IdSet(xs[..k] + xs[k + 1..]) == IdSet(xs) - {xs[k].id}
    ensures multiset(xs[..k] + xs[k + 1..]) + multiset{xs[k]} == multiset(xs)
  {
    var ys := xs[..k] + xs[k + 1..];
    UniqueIdsRemoveAt(xs, k);
    assert IdSet(ys) == IdSet(xs) - {xs[k].id} by {
      RemoveIdAt(xs, xs[k].id, k);
    }
    MultisetRemoveAt(xs, k);
    forall x | x in ys
      ensures x.width > 0
    {
      assert x in multiset(ys);
    }
  }

  /** The bucket-level facts behind a move: rows stay well formed, the moved id
      now lives in `target` only, and no other id appears anywhere new. */
  lemma MoveFacts(s: Placement, next: Placement, source: Bucket, target: Bucket, k: nat)
    requires forall b :: WellFormedRow(Items(s, b))
    requires PairwiseDisjoint(s)
    requires source != target && k < |Items(s, source)|
    requires MovedAcross(s, next, source, target, k)
    ensures var id := Items(s, source)[k].id;
            && (forall b :: WellFormedRow(Items(next, b)))
            && (forall b :: IdSet(Items(next, b)) <= IdSet(Items(s, b)) + (if b == target then {id} else {}))
            && (forall b :: id in IdSet(Items(next, b)) <==> b == target)
            && id in IdSet(Items(s, source))
  {
    var xs := Items(s, source);
    var id := xs[k].id;
    assert id in IdSet(xs);
    assert IdSet(xs) !! IdSet(Items(s, target));
    assert WellFormedRow(xs) && WellFormedRow(Items(s, target));
    WellFormedRemoveAt(xs, k);
    UniqueIdsAppend(Items(s, target), xs[k]);
    IdSetAppend(Items(s, target), xs[k]);
    forall b | b != source && b != target
      ensures id !in IdSet(Items(next, b))
    {
      assert IdSet(xs) !! IdSet(Items(s, b));
    }
  }

  /** An accepted move between two known buckets keeps the invariant, keeps
      every item (the multiset of all items is unchanged) and leaves the
      dragged item in the target bucket and no other. */
  lemma MoveKeepsPartition(s: Placement, next: Placement, source: Bucket, target: Bucket, k: nat)
    requires Valid(s) && source != target && k < |Items(s, source)|
    requires MovedAcross(s, next, source, target, k)
    ensures Valid(next)
    ensures Bag(next) == Bag(s)
    ensures forall b :: Items(s, source)[k].id in IdSet(Items(next, b)) <==> b == target
  {
    var xs := Items(s, source);
    MoveFacts(s, next, source, target, k);
    AllIdsCover(s);
    ValidAfterTransfer(s, next, xs[k].id, target);
    BagAfterMove(s, next, source, target, k);
  }

  /** The bucket-level facts behind a loss: rows stay well formed, the lost id
      is in no bucket, and no other id appears anywhere new. */
  lemma LossFacts(s: Placement, next: Placement, source: Bucket, k: nat)
    requires forall b :: WellFormedRow(Items(s, b))
    requires PairwiseDisjoint(s)
    requires k < |Items(s, source)|
    requires Items(next, source) == Items(s, source)[..k] + Items(s, source)[k + 1..]
    requires forall b :: b != source ==> Items(next, b) == Items(s, b)
    ensures var id := Items(s, source)[k].id;
            && (forall b :: WellFormedRow(Items(next, b)))
            && (forall b :: IdSet(Items(next, b)) <= IdSet(Items(s, b)))
            && (forall b :: id !in IdSet(Items(next, b)))
            && id !in AllIds(next)
            && id in IdSet(Items(s, source))
  {
    var xs := Items(s, source);
    var id := xs[k].id;
    assert id in IdSet(xs);
    assert WellFormedRow(xs);
    WellFormedRemoveAt(xs, k);
    AllIdsCover(next);
    forall b | b != source
      ensures id !in IdSet(Items(next, b))
    {
      assert IdSet(xs) !! IdSet(Items(s, b));
    }
  }

  /** Taking an item out of a bucket never pushes a row over capacity. */
  lemma LossCapacity(s: Placement, next: Placement, source: Bucket, k: nat)
    requires k < |Items(s, source)| && Items(s, source)[k].width > 0
    requires Items(next, source) == Items(s, source)[..k] + Items(s, source)[k + 1..]
    requires forall b :: b != source ==> Items(next, b) == Items(s, b)
    requires next.board == s.board
    ensures WithinCapacity(s) ==> WithinCapacity(next)
  {
    RemoveAtNarrows(Items(s, source), k);
    CapacityKept(s, next, source);
  }

  /** A drop onto an unknown target keeps the invariant but loses the dragged
      item: the multiset of all items shrinks by exactly that item, and its id
      is left in no bucket. */
  lemma LossKeepsPartition(s: Placement, next: Placement, source: Bucket, k: nat)
    requires Valid(s) && k < |Items(s, source)|
    requires DroppedOut(s, next, source, k)
    ensures Valid(next)
    ensures Bag(next) + multiset{Items(s, source)[k]} == Bag(s)
    ensures forall b :: Items(s, source)[k].id !in IdSet(Items(next, b))
    ensures Items(s, source)[k].id !in AllIds(next)
    ensures WithinCapacity(s) ==> WithinCapacity(next)
  {
    var xs := Items(s, source);
    LossFacts(s, next, source, k);
    assert WellFormedRow(xs);
    LossCapacity(s, next, source, k);
    AllIdsCover(s);
    ValidAfterTransfer(s, next, xs[k].id, source);
    BagAfterLoss(s, next, source, k);
  }

  /** The bucket-level facts behind a reorder: the row keeps its members, hence
      its ids, and stays well formed. */
  lemma ReorderFacts(s: Placement, next: Placement, row: Bucket)
    requires forall b :: WellFormedRow(Items(s, b))
    requires multiset(Items(next, row)) == multiset(Items(s, row))
    requires forall b :: b != row ==> Items(next, b) == Items(s, b)
    requires UniqueIds(Items(next, row))
    ensures forall b :: WellFormedRow(Items(next, b))
    ensures forall b :: IdSet(Items(next, b)) == IdSet(Items(s, b))
  {
    var xs, ys := Items(s, row), Items(next, row);
    assert WellFormedRow(xs);
    forall x
      ensures x in ys <==> x in xs
    {
      assert x in ys <==> x in multiset(ys);
      assert x in xs <==> x in multiset(xs);
    }
    IdSetSameMembers(ys, xs);
  }

  /** A reorder keeps the invariant and every item. */
  lemma ReorderKeepsPartition(s: Placement, next: Placement, row: Bucket)
    requires Valid(s)
    requires multiset(Items(next, row)) == multiset(Items(s, row))
    requires forall b :: b != row ==> Items(next, b) == Items(s, b)
    requires next.board == s.board && next.counter == s.counter
    requires UniqueIds(Items(next, row))
    ensures Valid(next)
    ensures Bag(next) == Bag(s)
  {
    ReorderFacts(s, next, row);
    assert IdSet(Items(next, Available)) == IdSet(Items(s, Available));
    assert IdSet(Items(next, Grid1)) == IdSet(Items(s, Grid1));
    assert IdSet(Items(next, Grid2)) == IdSet(Items(s, Grid2));
    assert IdSet(Items(next, Grid3)) == IdSet(Items(s, Grid3));
    assert AllIds(next) == AllIds(s);
    assert PairwiseDisjoint(next);
    forall x
      ensures Bag(next)[x] == Bag(s)[x]
    {
      BagCount(s, x);
      BagCount(next, x);
    }
    assert Bag(next) == Bag(s);
  }

  // ---------------------------------------------------------------- drag end as a whole

  /** The drop target names neither a bucket nor an item in one. */
  ghost predicate Unresolved(s: Placement, overId: string)
  {
    forall b :: overId !in IdSet(Items(s, b)) && overId != BucketId(b)
  }

  /** Removing an item of positive width never makes a row wider. */
  lemma RemoveAtNarrows(xs: seq<Item>, k: nat)
    requires k < |xs| && xs[k].width > 0
    ensures UsedWidth(xs[..k] + xs[k + 1..]) < UsedWidth(xs)
  {
    UsedWidthRemoveAt(xs, k);
    assert RemoveAt(xs, k) == xs[..k] + xs[k + 1..];
  }

  /** A step that touches one bucket without widening it keeps every row
      within capacity. */
  lemma CapacityKept(s: Placement, next: Placement, changed: Bucket)
    requires forall b :: b != changed ==> Items(next, b) == Items(s, b)
    requires UsedWidth(Items(next, changed)) <= UsedWidth(Items(s, changed))
    requires next.board == s.board
    ensures WithinCapacity(s) ==> WithinCapacity(next)
  {
  }

  /** What every accepted step must keep: the invariant, and rows that were
      within the board's capacity stay so. */
  ghost predicate StepKeeps(s: Placement, next: Placement)
  {
    Valid(next) && (WithinCapacity(s) ==> WithinCapacity(next))
  }

  lemma ReorderCase(s: Placement, row: Bucket, activeId: string, overId: string)
    requires Valid(s) && IsRow(row) && activeId in IdSet(Items(s, row))
    requires overId in IdSet(Items(s, row)) || overId == BucketId(row)
    ensures var r := DragEnd(s, activeId, Some(overId));
            r.Applied? && StepKeeps(s, r.next) && Bag(r.next) == Bag(s)
  {
    var xs := Items(s, row);
    var i, j := FindIndex(xs, activeId), FindIndex(xs, overId);
    DropWithinRowReorders(s, row, activeId, overId);
    var next := DragEnd(s, activeId, Some(overId)).next;
    assert UniqueIds(Items(next, row)) by {
      assert UniqueIds(xs);
      if j != -1 && j != i {
        UniqueIdsArrayMove(xs, i, j);
      }
    }
    ReorderKeepsPartition(s, next, row);
    CapacityKept(s, next, row);
    assert StepKeeps(s, next);
  }

  lemma MoveCase(s: Placement, source: Bucket, target: Bucket, activeId: string, overId: string)
    requires Valid(s) && source != target && activeId in IdSet(Items(s, source))
    requires overId in IdSet(Items(s, target)) || overId == BucketId(target)
    ensures var r := DragEnd(s, activeId, Some(overId));
            r.Applied? ==> StepKeeps(s, r.next) && Bag(r.next) == Bag(s)
  {
    DropIntoOtherBucket(s, source, target, activeId, overId);
    var r := DragEnd(s, activeId, Some(overId));
    if r.Applied? {
      var xs := Items(s, source);
      var k := FindIndex(xs, activeId);
      MoveKeepsPartition(s, r.next, source, target, k);
      assert xs[k].width > 0 by {
        assert WellFormedRow(xs);
      }
      CapacityAfterMove(s, r.next, source, target, k);
      assert StepKeeps(s, r.next);
    }
  }

  /** A move shrinks its source and only lands in a row that has room, so no
      row ends up over capacity. */
  lemma CapacityAfterMove(s: Placement, next: Placement, source: Bucket, target: Bucket, k: nat)
    requires source != target && k < |Items(s, source)| && Items(s, source)[k].width > 0
    requires MovedAcross(s, next, source, target, k)
    ensures WithinCapacity(s) ==> WithinCapacity(next)
  {
    RemoveAtNarrows(Items(s, source), k);
  }

  lemma LossCase(s: Placement, source: Bucket, activeId: string, overId: string)
    requires Valid(s) && activeId in IdSet(Items(s, source)) && Unresolved(s, overId)
    ensures var r := DragEnd(s, activeId, Some(overId));
            var item := Items(s, source)[FindIndex(Items(s, source), activeId)];
            r.Applied? ==>
              && StepKeeps(s, r.next) && Bag(r.next) + multiset{item} == Bag(s)
              && activeId !in AllIds(r.next)
  {
    DropOnUnknownTargetLosesItem(s, source, activeId, overId);
    var r := DragEnd(s, activeId, Some(overId));
    if r.Applied? {
      var xs := Items(s, source);
      var k := FindIndex(xs, activeId);
      LossKeepsPartition(s, r.next, source, k);
      assert StepKeeps(s, r.next);
    }
  }

  /** The dragged item, when found, is in exactly one bucket. */
  lemma ActiveOwner(s: Placement, activeId: string, source: Bucket)
    requires Valid(s) && activeId in IdSet(Items(s, source))
    ensures forall b :: activeId in IdSet(Items(s, b)) <==> b == source
  {
    forall b | b != source
      ensures activeId !in IdSet(Items(s, b))
    {
      assert IdSet(Items(s, b)) !! IdSet(Items(s, source));
    }
  }

  /** `handleDragEnd` keeps the invariant and never overfills a row that was
      within capacity. */
  lemma DragEndPreservesValid(s: Placement, activeId: string, over: Option<string>)
    requires Valid(s)
    ensures var r := DragEnd(s, activeId, over);
            r.Applied? ==> StepKeeps(s, r.next)
  {
    AllIdsCover(s);
    if over.None? || activeId !in AllIds(s) {
      assert DragEnd(s, activeId, over) == Applied(s);
      assert StepKeeps(s, s);
      return;
    }
    var overId := over.value;
    var source :| activeId in IdSet(Items(s, source));
    if Unresolved(s, overId) {
      LossCase(s, source, activeId, overId);
    } else {
      var target :| overId in IdSet(Items(s, target)) || overId == BucketId(target);
      if target != source {
        MoveCase(s, source, target, activeId, overId);
      } else if IsRow(source) {
        ReorderCase(s, source, activeId, overId);
      } else {
        DropOnOwnPoolIsNoOp(s, activeId, overId);
        assert StepKeeps(s, s);
      }
    }
  }

  /** `handleDragEnd` keeps every item, except that an item dropped onto an id
      naming neither a bucket nor an item is lost: it leaves the engine and
      nothing else does. */
  lemma DragEndConservesItems(s: Placement, activeId: string, over: Option<string>)
    requires Valid(s)
    ensures var r := DragEnd(s, activeId, over);
            && (r.Applied? && (over.None? || !Unresolved(s, over.value)) ==> Bag(r.next) == Bag(s))
            && (r.Applied? && over.Some? && Unresolved(s, over.value) ==>
                  forall b :: activeId in IdSet(Items(s, b)) ==>
                    && Bag(r.next) + multiset{Items(s, b)[FindIndex(Items(s, b), activeId)]} == Bag(s)
                    && activeId !in AllIds(r.next))
  {
    AllIdsCover(s);
    if over.None? || activeId !in AllIds(s) {
      assert DragEnd(s, activeId, over) == Applied(s);
      return;
    }
    var overId := over.value;
    var source :| activeId in IdSet(Items(s, source));
    ActiveOwner(s, activeId, source);
    if Unresolved(s, overId) {
      LossCase(s, source, activeId, overId);
    } else {
      var target :| overId in IdSet(Items(s, target)) || overId == BucketId(target);
      if target != source {
        MoveCase(s, source, target, activeId, overId);
      } else if IsRow(source) {
        ReorderCase(s, source, activeId, overId);
      } else {
        DropOnOwnPoolIsNoOp(s, activeId, overId);
      }
    }
  }
}

=== FILE: sortable.dfy ===
/** `arrayMove` of the sortable drag-and-drop library, restated on sequences:
    the element at `from` is taken out and re-inserted so that it lands at
    index `to`; everything between the two positions shifts by one. */
module Sortable {

  function RemoveAt<T>(xs: seq<T>, i: nat): (r: seq<T>)
    requires i < |xs|
    ensures |r| == |xs| - 1
    ensures forall k :: 0 <= k < i ==> r[k] == xs[k]
    ensures forall k :: i <= k < |r| ==> r[k] == xs[k + 1]
    ensures multiset(r) + multiset{xs[i]} == multiset(xs)
  {
    assert xs == xs[..i] + [xs[i]] + xs[i + 1..];
    xs[..i] + xs[i + 1..]
  }

  function InsertAt<T>(xs: seq<T>, j: nat, x: T): (r: seq<T>)
    requires j <= |xs|
    ensures |r| == |xs| + 1 && r[j] == x
    ensures forall k :: 0 <= k < j ==> r[k] == xs[k]
    ensures forall k :: j < k < |r| ==> r[k] == xs[k - 1]
    ensures multiset(r) == multiset(xs) + multiset{x}
  {
    assert xs == xs[..j] + xs[j..];
    xs[..j] + [x] + xs[j..]
  }

  /** A sequence is its prefix followed by the rest. */
  lemma TakeDropJoin<T>(xs: seq<T>, j: nat)
    requires j <= |xs|
    ensures xs[..j] + xs[j..] == xs
  {
  }

  function ArrayMove<T>(xs: seq<T>, from: nat, to: nat): (r: seq<T>)
    requires from < |xs| && to < |xs|
    ensures |r| == |xs|
    ensures r[to] == xs[from]
    ensures multiset(r) == multiset(xs)
    ensures forall k :: 0 <= k < |xs| && k < from && k < to ==> r[k] == xs[k]
    ensures forall k :: 0 <= k < |xs| && k > from && k > to ==> r[k] == xs[k]
    ensures forall k :: from <= k < to ==> r[k] == xs[k + 1]
    ensures forall k :: to < k <= from ==> r[k] == xs[k - 1]
  {
    InsertAt(RemoveAt(xs, from), to, xs[from])
  }

  /** Moving an element and then moving it back restores the sequence. */
  lemma ArrayMoveInverse<T>(xs: seq<T>, from: nat, to: nat)
    requires from < |xs| && to < |xs|
    ensures ArrayMove(ArrayMove(xs, from, to), to, from) == xs
  {
    var ys := ArrayMove(xs, from, to);
    var zs := ArrayMove(ys, to, from);
    forall k | 0 <= k < |xs|
      ensures zs[k] == xs[k]
    {
      if k == from {
      } else if k < from && k < to {
      } else if k > from && k > to {
      } else if from < k <= to {
        assert zs[k] == ys[k - 1];
      } else {
        assert zs[k] == ys[k + 1];
      }
    }
  }

  /** Moving an element onto its own position changes nothing. */
  lemma ArrayMoveSame<T>(xs: seq<T>, i: nat)
    requires i < |xs|
    ensures ArrayMove(xs, i, i) == xs
  {
  }
}

=== FILE: wrappers.dfy ===
/** The optional value used wherever the source returns `null` or `undefined`. */
module Wrappers {

  datatype Option<+T> = None | Some(value: T)
}
